=== FILE: README.md ===
# Telemetry Kitchen ingestion pipeline, in Dafny

This project is a functional model of the path a sensor reading takes
through Telemetry Kitchen:

1. `Gateway.Poller` polls each configured station over HTTP. It retries a
   429 or 5xx reply up to three attempts, with a jittered back-off.
2. It picks the Sensor.Community or the openSenseMap parser by source type.
   A parse error falls back to a `raw` measurement.
3. It assembles a `SensorEvent` whose id is the SHA-256 hex of
   `sensorId|observedAt|payloadBytes|payload`.
4. It publishes the event to the `sensor-events` topic exchange under the
   routing key `sensor.<sensorId>.<sourceType>`.
5. Per station, a loop repeats the poll every poll interval. Failures back
   off from 5 s, doubling up to 300 s.
6. `Ingest.Consumer` takes deliveries from the durable `ingest-events`
   queue with manual acknowledgement and a prefetch of ten.
   - It checks whether the event id is already stored.
   - Otherwise it writes the event. One transaction upserts the sensor row
     and inserts the event with `ON CONFLICT (event_id) DO NOTHING`.
   - It acknowledges, requeues (`Nack(requeue: true)`) or drops
     (`Nack(requeue: false)`) the delivery according to the outcome.
7. `Web.Mvc`'s `SensorRepository` reads the two tables back:
   - the sensor list, ordered by display name;
   - a sensor's detail page, with its fifty newest events and the decoded
     measurements of the newest one;
   - the map points of the sensors that have coordinates.

Each component is one module:

| file | module | component |
|---|---|---|
| `contracts.dfy` | `Contracts` | shared types: `SensorEvent`, `Measurement`, `StatusLevel`, `StationConfig` |
| `json.dfy` | `Json` | deserialisation outcomes and JSON values |
| `parsing.dfy` | `Parsing` | what both parsers share |
| `sensor_community.dfy` | `SensorCommunity` | the Sensor.Community parser |
| `open_sense_map.dfy` | `OpenSenseMap` | the openSenseMap parser |
| `poller.dfy` | `Poller` | one poll |
| `station_loop.dfy` | `StationLoop` | the per-station loop |
| `publisher.dfy` | `Publisher` | the RabbitMQ publisher |
| `consumer.dfy` | `Consumer` | the RabbitMQ consumer |
| `store.dfy` | `Store` | the two tables and their three SQL statements |
| `ingest.dfy` | `Ingest` | the duplicate check, the writer and the event handler |
| `repository.dfy` | `Repository` | the read side |

Supporting modules are `Wrappers`, `Text` and `Sorting`. `Text` holds
white space, trimming, ASCII case, decimal digits and ordinal order.
`Sorting` is an insertion sort standing for `ORDER BY`.

Everything the code cannot compute by itself is a parameter of the model:

- the HTTP replies;
- the JSON deserialiser's outcome;
- the clock;
- the random jitter;
- SHA-256 and the round-trip date format;
- the culture-dependent date parsers;
- failures of the broker and the database.

`sensor_events` is modelled as a sequence of rows, not a map. "One row per
event id" is therefore a proved invariant of the insert, not a property of
the representation.

## Model

| member | source | states |
|---|---|---|
| Contracts.StatusLevelTextRoundTrip | src/Ingest.Consumer/Persistence/PostgresWriter.cs:57 | The text the writer stores for a status level reads back as the same level. |
| Contracts.StationWithDefaults | src/Gateway.Poller/Options/Scenario1Config.cs:8-18 | A station that sets only its required members polls openSenseMap every 60 s, at coordinates 0, with no location id. |
| Json.Property | src/Web.Mvc/Repositories/SensorRepository.cs:33 | A property lookup succeeds exactly when some member has the key, and then yields that member's value. |
| Parsing.Later | src/Gateway.Poller/ExternalSources/SensorCommunityParser.cs:61-64 | One update of the observed time never moves it back. It takes the new time or keeps the old one. |
| Parsing.LatestOfIsMaximum | src/Gateway.Poller/ExternalSources/OpenSenseMapParser.cs:30-36 | Repeating the update over all candidate times ends at their maximum. The result is absent only when there was no time at all. |
| Parsing.RawMeasurement | src/Gateway.Poller/ExternalSources/OpenSenseMapParser.cs:44-49 | The fallback measurement is named `raw` and has no unit. Its value is the first min(200, length) characters of the body. |
| SensorCommunity.NormalizeShape | src/Gateway.Poller/ExternalSources/SensorCommunityParser.cs:75-83 | A normalised name is never blank and holds no space and no upper-case ASCII letter. It is `unknown` exactly when the name was missing or blank. |
| SensorCommunity.NormalizeIsIdempotent | src/Gateway.Poller/ExternalSources/SensorCommunityParser.cs:75-83 | Normalising an already normalised name changes nothing. |
| SensorCommunity.UnknownIsNormalized | src/Gateway.Poller/ExternalSources/SensorCommunityParser.cs:77-80 | The default name `unknown` already has the normalised shape. |
| SensorCommunity.NormalizesTo | src/Gateway.Poller/ExternalSources/SensorCommunityParser.cs:82 | A name with no white space normalises to its lower-case form. |
| SensorCommunity.ExampleNames | src/Gateway.Poller/ExternalSources/SensorCommunityParser.cs:82 | `SDS011` normalises to `sds011`, and `P1` to `p1`. |
| SensorCommunity.Parse | src/Gateway.Poller/ExternalSources/SensorCommunityParser.cs:10-73 | A `JsonException` propagates with its message. `null` or an empty list gives WARN "Empty Sensor.Community response" and nothing else. Otherwise the parser appends exactly the reference measurements and folds the reference times. It sets WARN "No measurements available" exactly when it produced nothing. |
| SensorCommunity.AddValuesMeetsReference | src/Gateway.Poller/ExternalSources/SensorCommunityParser.cs:35-54 | The inner loop appends one `<type>.<valueType>` measurement per value with a non-blank value type, in order. It raises the found flag exactly when it appended something. |
| SensorCommunity.AddValuesStep | src/Gateway.Poller/ExternalSources/SensorCommunityParser.cs:37-53 | One turn of the inner loop skips a blank value type or appends that value's measurement, in agreement with the reference. |
| SensorCommunity.AddReadingsMeetsReference | src/Gateway.Poller/ExternalSources/SensorCommunityParser.cs:27-66 | The outer loop appends the reference measurements of all readings. It folds in the timestamps of exactly the readings that have values. |
| SensorCommunity.ReadingStepMeetsReference | src/Gateway.Poller/ExternalSources/SensorCommunityParser.cs:29-65 | A reading without values contributes neither measurements nor its timestamp. A reading with values contributes both. |
| SensorCommunity.ProducedShape | src/Gateway.Poller/ExternalSources/SensorCommunityParser.cs:42-51 | Every measurement produced has no unit and a non-blank, space-free name containing a `.`. |
| SensorCommunity.ValueMeasurementsShape | src/Gateway.Poller/ExternalSources/SensorCommunityParser.cs:42-51 | The same shape, for the measurements of one reading under a normalised sensor type. |
| SensorCommunity.SingleReadingExample | src/Gateway.Poller/ExternalSources/SensorCommunityParser.cs:27-66 | One SDS011 reading with a P1 value of `12.5` yields exactly the measurement `sds011.p1` = `12.5`, observed at its timestamp. |
| OpenSenseMap.SensorMeasurement | src/Gateway.Poller/ExternalSources/OpenSenseMapParser.cs:23-28 | A sensor's measurement is named by its title, or `unknown` when there is no title. It carries the sensor's last value and unit. |
| OpenSenseMap.Parse | src/Gateway.Poller/ExternalSources/OpenSenseMapParser.cs:8-57 | A `JsonException` propagates. `null`, or a box without sensors, gives WARN "Invalid response structure". Otherwise the parser appends one measurement per sensor with a value and folds their times. It falls back to a single `raw` measurement with WARN when nothing was kept. |
| OpenSenseMap.AddSensorsMeetsReference | src/Gateway.Poller/ExternalSources/OpenSenseMapParser.cs:19-38 | The loop appends exactly the reference measurements and folds exactly the reference times. |
| OpenSenseMap.KeptIsFromSensorsWithValues | src/Gateway.Poller/ExternalSources/OpenSenseMapParser.cs:19-28 | A measurement is kept exactly when some sensor with a value yields it. |
| OpenSenseMap.KeptLength | src/Gateway.Poller/ExternalSources/OpenSenseMapParser.cs:19-28 | At most one measurement is kept per sensor, and exactly one each when every sensor has a value. |
| Poller.RetryDelayMs | src/Gateway.Poller/Services/PollerService.cs:237-242 | A retry delay is between 600 ms and 5499 ms. Attempts 1 to 4 wait exactly 500, 1000, 2000 and 4000 ms plus the jitter. From the fifth attempt on the delay is exactly the 5000 ms cap plus the jitter. |
| Poller.RetryDelayGrows | src/Gateway.Poller/Services/PollerService.cs:239 | Below the cap, a later attempt always waits longer than an earlier one, whatever the jitters. |
| Poller.RetriedDelays | src/Gateway.Poller/Services/PollerService.cs:237-242 | The only two delays that can happen are 500 ms and 1000 ms plus the jitter. |
| Poller.Settle | src/Gateway.Poller/Services/PollerService.cs:218-223 | The call that ends the loop yields its body exactly when it got a 2xx reply. A timeout fails as a timeout. |
| Poller.FetchFrom | src/Gateway.Poller/Services/PollerService.cs:202-231 | The loop makes between the current attempt and 3 calls, and sleeps once before each call after the first. |
| Poller.Fetch | src/Gateway.Poller/Services/PollerService.cs:196-235 | A fetch makes 1 to 3 GET calls, with one delay fewer than calls. |
| Poller.FetchMeetsReference | src/Gateway.Poller/Services/PollerService.cs:202-231 | Every call before the last was a 429 or 5xx and could still be retried. The last call could not be retried, and it alone settles the outcome. The k-th delay is the jittered back-off of attempt k. |
| Poller.RetryThenSuccessExample | src/Gateway.Poller/Services/PollerService.cs:218-223 | A 503 followed by a 200 makes two calls, returns the 200's body and sleeps once, between 600 and 999 ms. |
| Poller.ThreeServerErrorsExample | src/Gateway.Poller/Services/PollerService.cs:218-223 | Three 503s make three calls with two delays, and end in an `HttpRequestException`. |
| Poller.EffectiveSourceType | src/Gateway.Poller/Services/PollerService.cs:89-91 | A blank configured source type becomes `opensensemap`. Any other is trimmed. The result is never empty and has no surrounding white space. |
| Poller.EffectiveSourceTypeIsIdempotent | src/Gateway.Poller/Services/PollerService.cs:89-91 | Deriving the source type from an effective source type changes nothing. |
| Poller.DefaultUsesOpenSenseMap | src/Gateway.Poller/Services/PollerService.cs:110-121 | The default source type selects the openSenseMap parser. |
| Poller.DispatchIgnoresCase | src/Gateway.Poller/Services/PollerService.cs:110-112 | The choice of parser does not depend on letter case. |
| Poller.ParseErrorFallback | src/Gateway.Poller/Services/PollerService.cs:123-133 | After a parse error the status is WARN. The message is "Parse error: …" truncated to 250 characters. One `raw` measurement is appended, and the observed time is untouched. |
| Poller.ParseBodyOutcomes | src/Gateway.Poller/Services/PollerService.cs:108-133 | Sensor.Community yields exactly its produced measurements. A structured openSenseMap box yields at least one measurement. A parse error in either yields exactly one `raw` measurement, WARN and no observed time. |
| Poller.EventIdPreimageIsUnambiguous | src/Gateway.Poller/Services/PollerService.cs:190-194 | The hashed text determines sensor id, formatted time, byte count and payload, as long as the id and the time contain no `\|`. |
| Poller.Assemble | src/Gateway.Poller/Services/PollerService.cs:135-154 | The assembled event carries the station's id and coordinates, the body and its byte count, and the parsed status and measurements. Its observed time falls back to the receive time. Its id is the hash of exactly those values. |
| Poller.PollStation | src/Gateway.Poller/Services/PollerService.cs:77-188 | A transport failure is logged and absorbed. Any other fetch fault, including the timeout, is rethrown unchanged. A throwing publish is rethrown as its own fault. The event is published exactly when the fetch succeeded and the publish did not throw. |
| Poller.PublishedEventFacts | src/Gateway.Poller/Services/PollerService.cs:135-157 | A published event carries the station id, the effective source type, the body and the parse result. The message id of its publication is the event id. |
| Poller.EventIdIsDeterministic | src/Gateway.Poller/Services/PollerService.cs:190-194 | Two polls with the same fetched body, parse inputs and receive time publish the same event, and so the same id, whatever their jitters and publish times. |
| StationLoop.Doubled | src/Gateway.Poller/Services/PollerService.cs:72 | The doubled back-off stays within 5-300 s. It grows unless it is at the cap, and it at most doubles. |
| StationLoop.AfterReturn | src/Gateway.Poller/Services/PollerService.cs:58-60 | After a normal poll the back-off is reset to 5 s. A negative interval instead makes the sleep throw, and the back-off becomes 10 s. |
| StationLoop.StepAsWritten | src/Gateway.Poller/Services/PollerService.cs:54-74 | As written, one pass ends the loop on a shutdown request, and also on an HTTP timeout. |
| StationLoop.Step | src/Gateway.Poller/Services/PollerService.cs:54-74 | As intended, the loop keeps running exactly when no shutdown was requested. A normal poll resets the back-off; a thrown fault doubles it. |
| StationLoop.Run | src/Gateway.Poller/Services/PollerService.cs:54-74 | Over any sequence of passes of the intended loop, the back-off stays between 5 and 300 s. |
| StationLoop.RunStopsOnlyOnRequest | src/Gateway.Poller/Services/PollerService.cs:54-65 | The intended loop is still running after a sequence of passes exactly when none of them requested a shutdown. |
| StationLoop.ConsecutiveFailures | src/Gateway.Poller/Services/PollerService.cs:51-73 | In the intended loop, after k failed passes from the start the back-off is min(5·2^k, 300) s. |
| StationLoop.TransportFailureResetsBackoff | src/Gateway.Poller/Services/PollerService.cs:170-180 | A poll whose fetch fails on the transport looks like success to the loop and resets the back-off. |
| StationLoop.TimeoutEndsLoopAsWritten | src/Gateway.Poller/Services/PollerService.cs:62-65 | A single HTTP timeout with no shutdown requested ends the loop as written. The intended loop backs off to 10 s and carries on. |
| Publisher.SplitRoutingKey | src/Gateway.Poller/Publishing/RabbitMqPublisher.cs:66 | A routing key that splits back into two parts is `sensor.` + first + `.` + second, with no `.` in the first part. |
| Publisher.RoutingKeyRoundTrip | src/Gateway.Poller/Publishing/RabbitMqPublisher.cs:66 | A routing key gives back the sensor id and source type whenever the sensor id has no `.`. |
| Publisher.Publish | src/Gateway.Poller/Publishing/RabbitMqPublisher.cs:53-88 | A publication goes to `sensor-events` under the routing key, is not mandatory, and is persistent JSON whose message id is the event id. A channel failure is rethrown. |
| Publisher.ExchangeSettings | src/Gateway.Poller/Publishing/RabbitMqPublisher.cs:26-47 | Events go to the exchange `sensor-events`, declared as a durable topic exchange that is not deleted when unused. |
| Publisher.RoutingKeyIsUnambiguous | src/Gateway.Poller/Publishing/RabbitMqPublisher.cs:66 | Two events with dot-free sensor ids share a routing key only when they share sensor id and source type. |
| Consumer.QueueSettings | src/Ingest.Consumer/Consuming/RabbitMqConsumer.cs:36-79 | The consumer reads the queue `ingest-events`: durable, not exclusive, not auto-deleted, in lazy mode. It prefetches at most ten deliveries per consumer, and acknowledges manually. |
| Consumer.Decide | src/Ingest.Consumer/Consuming/RabbitMqConsumer.cs:105-146 | A delivery is acknowledged exactly when it decodes and the handler returns true. It is dropped exactly when it does not decode, decodes to `null`, or its handler throws `JsonException`, which the same `catch` takes. In every other case it is requeued. |
| Consumer.OnMessageReceived | src/Ingest.Consumer/Consuming/RabbitMqConsumer.cs:99-147 | The handler runs exactly for a decoded event. The first channel call carries the table's action, and a second call can only be a requeue. Every call uses the delivery's own tag and never `multiple`. |
| Consumer.SettlesExactlyOnce | src/Ingest.Consumer/Consuming/RabbitMqConsumer.cs:105-146 | With a working channel, each delivery gets exactly one settling call, and it is the table's. |
| Consumer.FirstCallFailing | src/Ingest.Consumer/Consuming/RabbitMqConsumer.cs:105-146 | If the first channel call throws, a verdict reached in the `try` becomes a requeue, and one reached in a `catch` is lost. |
| Consumer.DroppedOnlyWhenUndecodable | src/Ingest.Consumer/Consuming/RabbitMqConsumer.cs:107-136 | A delivery is dropped for good only when it did not decode to an event, or its handler threw `JsonException`. |
| Store.UpsertSensor | src/Ingest.Consumer/Persistence/Schema/SqlStatements.cs:5-14 | The upsert sets every column of the sensor's row to the new values. It keeps the creation time of an existing row and touches no other sensor and no event. |
| Store.InsertEvent | src/Ingest.Consumer/Persistence/Schema/SqlStatements.cs:16-23 | A new event id appends the row and affects one row. A known id changes nothing and affects zero rows. |
| Store.CheckEventExists | src/Ingest.Consumer/Persistence/Schema/SqlStatements.cs:25-26 | The check returns one row exactly when the id is stored, and none otherwise. |
| Store.InsertKeepsIdsUnique | src/Ingest.Consumer/Persistence/Schema/SqlStatements.cs:23 | `ON CONFLICT (event_id) DO NOTHING` keeps event ids unique. |
| Store.UniqueMeansOneRow | src/Ingest.Consumer/Persistence/Schema/SqlStatements.cs:16-23 | With unique ids, a stored event id is on exactly one row. |
| Ingest.MeasurementsJson | src/Ingest.Consumer/Persistence/PostgresWriter.cs:59 | The serialised measurements are an array holding one object per measurement, in order. |
| Ingest.EventRowOf | src/Ingest.Consumer/Persistence/PostgresWriter.cs:50-59 | The bound row copies every field of the event: id, sensor, source type, payload type and size, observed and received times, and status message. Its status text parses back to the event's level. Its measurements column is the serialised measurements array, one entry per measurement. |
| Ingest.IsNewEvent | src/Ingest.Consumer/Idempotency/EventDeduplicator.cs:24-51 | The duplicate check fails exactly when the database does. Otherwise it answers "new" exactly when no row has the id. |
| Ingest.WriteEvent | src/Ingest.Consumer/Persistence/PostgresWriter.cs:27-85 | A fault rolls everything back and is rethrown. Otherwise the event is stored and the answer is whether its row is new. The sensor's row is named by its id, has no coordinates and carries the event's source type. Its update time is the write time, and its creation time is kept if the row existed and is the write time otherwise. No other sensor row changes, and no sensor row is removed. |
| Ingest.WriteKeepsIdsUnique | src/Ingest.Consumer/Persistence/PostgresWriter.cs:47-62 | The writer keeps event ids unique. |
| Ingest.WriteTwice | src/Ingest.Consumer/Persistence/PostgresWriter.cs:61-75 | Writing an event twice answers true, then false, and leaves one row for its id. |
| Ingest.WrittenIsNotNew | src/Ingest.Consumer/Idempotency/EventDeduplicator.cs:31-37 | After a successful write the duplicate check calls the event known. |
| Ingest.HandleEvent | src/Ingest.Consumer/Program.cs:117-167 | The handler reports failure exactly when the duplicate check threw or the write of a new event failed. When it reports success, the event is stored. A known event leaves the database unchanged. |
| Ingest.HandleKeepsIdsUnique | src/Ingest.Consumer/Program.cs:125-156 | The handler, with a racing writer between its check and its write, keeps event ids unique. |
| Ingest.HandleTwiceStoresOnce | src/Ingest.Consumer/Program.cs:127-156 | Delivering an event twice, with no faults and a racing writer possible on either delivery, acknowledges both deliveries and stores exactly one row. |
| Ingest.LostRaceIsAcknowledged | src/Ingest.Consumer/Program.cs:151-156 | When a racing writer stored the same event first, the handler's insert touches no row, yet the event is acknowledged and stored once. |
| Ingest.AcknowledgedOnlyWhenStored | src/Ingest.Consumer/Consuming/RabbitMqConsumer.cs:118-130 | An acknowledged event is stored. An event is requeued exactly when the duplicate check threw or the write of a new event failed. Because this handler returns a verdict and never throws, a decoded event is never dropped. |
| Repository.LookUp | src/Web.Mvc/Repositories/SensorRepository.cs:33-46 | The lookup throws exactly on a non-object. It yields the PascalCase property when present, and the lower-case one otherwise. |
| Repository.GetString | src/Web.Mvc/Repositories/SensorRepository.cs:35 | `GetString` throws exactly on a non-string, non-null value. It yields the text of a string and `null` for `null`. |
| Repository.ElementText | src/Web.Mvc/Repositories/SensorRepository.cs:40 | `ToString` of a string is its text, and of `null` is the empty string. |
| Repository.ParseMeasurement | src/Web.Mvc/Repositories/SensorRepository.cs:26-57 | Decoding an item throws exactly when it is not an object, or when its name or unit is neither a string nor `null`. It yields an item exactly when the name is a non-empty string. |
| Repository.SummaryPair | src/Web.Mvc/Repositories/SensorRepository.cs:129-145 | The event-summary pair uses the same name rule. It throws only for a non-object or a bad name, because the unit is not read. |
| Repository.Collect | src/Web.Mvc/Repositories/SensorRepository.cs:100-105 | Decoding an array throws exactly when some item throws. Otherwise it keeps exactly the items that decode to something, and no more items than the array holds. |
| Repository.MeasurementsRoundTrip | src/Web.Mvc/Repositories/SensorRepository.cs:26-57 | What the writer serialised reads back as the named measurements, in order, with the same names and values and a missing unit shown as `""`. |
| Repository.ReadBackOne | src/Web.Mvc/Repositories/SensorRepository.cs:26-57 | The same round trip for one serialised measurement, under both decoders. |
| Repository.PairsAgreeWithItems | src/Web.Mvc/Repositories/SensorRepository.cs:127-147 | Whenever the measurement decoder accepts an array, the event summary shows the same names and values, in order. |
| Repository.EventsOf | src/Web.Mvc/Repositories/SensorRepository.cs:84-85 | A sensor's events are exactly the stored rows carrying its id. |
| Repository.RecentEventsAreOwn | src/Web.Mvc/Repositories/SensorRepository.cs:84-88 | The recent events are min(50, n) of the sensor's own n events. |
| Repository.RecentEventsAreNewest | src/Web.Mvc/Repositories/SensorRepository.cs:84-88 | The recent events come newest first. Together with those left out they are exactly the sensor's events, and none left out is newer than one kept. |
| Repository.NewestIsLatest | src/Web.Mvc/Repositories/SensorRepository.cs:173-176 | The first newest-first event, when there is one, carries the latest observed time of the sensor. |
| Repository.DisplayName | src/Web.Mvc/Repositories/SensorRepository.cs:65 | The display name is the stored one, or the sensor id when none is stored. |
| Repository.Summary | src/Web.Mvc/Repositories/SensorRepository.cs:62-71 | A list row carries the sensor's id, display name, source type and coordinates and the count of its events. Its last event time is their maximum, absent when there are none. |
| Repository.GetAllSensors | src/Web.Mvc/Repositories/SensorRepository.cs:59-74 | The list has one row per sensor, each row its summary and no sensor twice, ordered by display name. |
| Repository.LatestMeasurements | src/Web.Mvc/Repositories/SensorRepository.cs:94-107 | The latest measurement time is set exactly when the newest event's column holds an array, and then equals that event's time. The list is then that array's decoded measurements, and a decode failure is passed on. Otherwise the list is empty. |
| Repository.SummarizeEvent | src/Web.Mvc/Repositories/SensorRepository.cs:121-149 | An event summary keeps the row's id, time and status. When the column holds an array, its measurements are that array's decoded pairs, and a decode failure is passed on. It has no measurements when the column is not an array, and can fail only when it is. |
| Repository.GetSensorDetail | src/Web.Mvc/Repositories/SensorRepository.cs:76-153 | The result is absent exactly for an unknown sensor. Otherwise it carries the sensor's row, its total event count and its fifty newest events summarised. Its latest measurements and time are those of the newest event. The time is set exactly when that event's column holds an array, and is then the sensor's latest event time. The call fails exactly for a known sensor whose newest event, or one of its fifty newest events, fails to decode. |
| Repository.FillIn | src/Web.Mvc/Repositories/SensorRepository.cs:171-192 | Filling in a map point keeps its id, display name, coordinates and event count. Its last event time is the newest event's time when the sensor has events. Its last measurements are the newest event's decoded array when that column holds one, and are kept otherwise. A decode failure is passed on. |
| Repository.FillInKeepsTime | src/Web.Mvc/Repositories/SensorRepository.cs:166-190 | The loop's last event time agrees with the maximum time the query projected. |
| Repository.GetMapPoints | src/Web.Mvc/Repositories/SensorRepository.cs:155-195 | The map has exactly the sensors with both coordinates, one point each, ordered by display name, each filled in from its newest event. The call fails exactly when filling in some located sensor's point fails to decode. |
| Repository.WrittenSensorIsNotLocated | src/Ingest.Consumer/Persistence/PostgresWriter.cs:39-43 | A sensor the ingest writer created has no coordinates, so it is not on the map. |

## Left out

- I/O: HTTP, RabbitMQ connections and channels, and Npgsql connections are not modelled. Their outcomes are inputs: scripted replies, failure flags and a fault point.
- JSON text: serialisation to text and parsing of text are not modelled. Deserialisation is an input, `Malformed`, `NullLiteral` or a value. `JsonElement.ToString` of numbers, arrays and objects is a parameter.
- Hashing and formatting: SHA-256, hex encoding, the `O` date format and UTF-8 byte counts are parameters. Only the shape of the hashed text is modelled.
- Clock and randomness: `DateTime.UtcNow` and `Random.Shared` are inputs. Jitters are only assumed to lie in [100, 500).
- Concurrency: `Task.WhenAll` over stations, the fire-and-forget `Task.Run` per delivery, cancellation tokens and hosted-service lifecycles are not modelled. A shutdown request is a flag on each loop pass.
- Timestamps: `DateTime` is an integer instant. Both timestamp parsers are parameters, because they depend on the culture.
- Coordinates: floating-point coordinates are `real`.
- Metrics, logging, dependency injection, hosting, the MVC controllers and views, and the blob storage fields are not modelled.
- The legacy `Gateway` and `Consumer` projects are not modelled.
- The `StatusLevel` enum declaration is not part of this model. Its member names are taken from the writer's `ToString()`.
- `payload_json`: the insert names a `@payload_json` parameter that the writer never binds. The column is not modelled, and the insert is taken to succeed.
- Text.ToLowerInvariant: lower-cases ASCII letters only. Culture-invariant case mapping of other characters is left out.
- Text.EqualsIgnoreCase: compares under ASCII case folding only.
- Text.OrdinalLe: `ORDER BY display_name` is modelled as ordinal order. Database collation is left out.
- Repository.GetAllSensors: rows with equal display names come in one particular order. The database may return them in any order.
- Repository.GetMapPoints: has the same tie rule. When several located sensors fail to decode, it does not say whose error message is passed on.
- Repository.NewestFirst: among events with the same observed time, one particular order is taken as "newest first".
- Repository.Summary: the `FirstOrDefault()!.ObservedAt` of a sensor with no events is modelled as an absent time, which is what the SQL translation yields.
- Poller.RetryDelayMs: requires attempt ≤ 23, because beyond that the 32-bit product `500 * 2^(attempt-1)` overflows. With three attempts only attempts 1 and 2 are ever retried.
- SensorCommunity.Parse: a `null` element in the readings array or in `sensordatavalues` makes the source throw `NullReferenceException`. `PollStation` rethrows it, so nothing is published for that poll. The model's lists cannot hold `null`, so this path is not modelled.
- OpenSenseMap.Parse: a `null` element in `sensors` likewise throws `NullReferenceException`, which is rethrown and not modelled.
- Text.Left: lengths and truncation count characters (Unicode scalar values). .NET counts UTF-16 code units, so text with characters outside the Basic Multilingual Plane is cut at a different place, and the source can split a surrogate pair.
- Parsing.RawMeasurement: its 200-character cut has the same character-versus-UTF-16 difference as Text.Left.
- Poller.ParseErrorFallback: its 250-character cut has the same character-versus-UTF-16 difference as Text.Left.
- Poller.Fetch: reading the response body is taken to succeed. The unreachable `InvalidOperationException` after the loop is not modelled; the loop provably always returns.
- StationLoop.AfterReturn: `Task.Delay` of an interval too large for a timer is not modelled. Only a negative interval is.
- Consumer: prefetch enforcement and redelivery are broker behaviour and are not modelled. The queue's binding to the exchange is not declared in the code.

## Findings

| source | as written | input that shows it | evidently intended | confidence | as-written member | corrected member |
|---|---|---|---|---|---|---|
| src/Gateway.Poller/Services/PollerService.cs:62-65 | `PollStation` rethrows an HTTP timeout. A timeout is a `TaskCanceledException`, which is an `OperationCanceledException`. The loop's `catch (OperationCanceledException) { break; }` therefore ends that station's polling for good. | One GET to a station's URL that gets no reply within the 30 s client timeout, with no shutdown requested. | Only a requested shutdown ends the loop. A timeout is a failed poll like any other: back off and retry. | not executed | StationLoop.StepAsWritten, StationLoop.TimeoutEndsLoopAsWritten | StationLoop.Step, StationLoop.RunStopsOnlyOnRequest |

=== FILE: consumer.dfy ===
/** The consumer's side of RabbitMQ (`RabbitMqConsumer`): the queue and QoS
    it sets up, and how `OnMessageReceivedAsync` settles each delivery with
    exactly one acknowledgement. */
module Consumer {
  import opened Wrappers
  import opened Contracts
  import opened Json

  const QueueName: string := "ingest-events"

  datatype QueueDeclaration = QueueDeclaration(
    name: string, durable: bool, exclusive: bool, autoDelete: bool, arguments: seq<(string, string)>)

  /** Durable, shared, kept when unused, and stored lazily on disk. */
  const Queue: QueueDeclaration := QueueDeclaration(QueueName, true, false, false, [("x-queue-mode", "lazy")])

  /** `BasicQos(prefetchSize, prefetchCount, global)`. */
  datatype Qos = Qos(prefetchSize: nat, prefetchCount: nat, global: bool)

  /** At most ten unacknowledged deliveries to this consumer at a time. */
  const ConsumerQos: Qos := Qos(0, 10, false)

  /** `BasicConsume(..., autoAck: false, ...)`: deliveries wait for an explicit ack. */
  const AutoAck: bool := false

  /** The settings the constructor and `StartConsuming` give the broker: the
      durable lazy queue `ingest-events`, a prefetch window of ten
      deliveries, and manual acknowledgement. */
  lemma QueueSettings()
    ensures Queue.name == "ingest-events"
    ensures Queue.durable && !Queue.exclusive && !Queue.autoDelete
    ensures Queue.arguments == [("x-queue-mode", "lazy")]
    ensures ConsumerQos.prefetchSize == 0 && ConsumerQos.prefetchCount == 10 && !ConsumerQos.global
    ensures !AutoAck
  {
  }

  /** The three ways to settle a delivery: `BasicAck`, or `BasicNack`
      asking the broker to requeue the message or to drop it. */
  datatype Action = Ack | Nack(requeue: bool)

  /** One call on the channel, with its delivery tag and `multiple` flag. */
  datatype ChannelCall = ChannelCall(deliveryTag: nat, action: Action, multiple: bool)

  /** How the awaited event handler ended: it returned its verdict, or it
      threw an exception that the `catch (JsonException)`, the
      `catch (OperationCanceledException)` or the generic `catch` takes. */
  datatype HandlerOutcome = Returned(processed: bool) | ThrewJson | ThrewCancellation | ThrewOther

  /** The table the consumer follows when no channel call fails: an
      undecodable or `null` message is dropped, and so is an event whose
      handler threw `JsonException`, since that exception lands in the same
      `catch`; a processed event is acknowledged, and anything else is
      requeued. */
  function Decide(decoded: Decoded<SensorEvent>, handler: HandlerOutcome): (a: Action)
    ensures a == Ack <==> decoded.Value? && handler == Returned(true)
    ensures a == Nack(false) <==> !decoded.Value? || handler == ThrewJson
    ensures a == Nack(true) <==> decoded.Value? && handler != Returned(true) && handler != ThrewJson
  {
    match decoded
    case Malformed(_) => Nack(false)
    case NullLiteral => Nack(false)
    case Value(_) =>
      match handler
      case Returned(processed) => if processed then Ack else Nack(true)
      case ThrewJson => Nack(false)
      case ThrewCancellation => Nack(true)
      case ThrewOther => Nack(true)
  }

  /** What one delivery caused: whether the handler ran, and the channel
      calls made, in order. */
  datatype Settlement = Settlement(handlerInvoked: bool, calls: seq<ChannelCall>)

  /** `OnMessageReceivedAsync`. The first `failingCalls` channel calls
      throw. A call made inside the `try` block (the `null` case and the
      handler's verdict) that throws lands in the generic `catch`, which
      tries `Nack(requeue)`; a call made inside a `catch` block that throws
      escapes the fire-and-forget task, leaving the delivery unsettled. */
  function OnMessageReceived(deliveryTag: nat, decoded: Decoded<SensorEvent>, handler: HandlerOutcome,
                             failingCalls: nat): (s: Settlement)
    ensures s.handlerInvoked <==> decoded.Value?
    ensures 1 <= |s.calls| <= 2
    ensures s.calls[0].action == Decide(decoded, handler)
    ensures |s.calls| == 2 ==> s.calls[1].action == Nack(true)
    ensures forall i :: 0 <= i < |s.calls| ==> s.calls[i].deliveryTag == deliveryTag && !s.calls[i].multiple
  {
    var first := ChannelCall(deliveryTag, Decide(decoded, handler), false);
    var madeInTry := decoded.NullLiteral? || (decoded.Value? && handler.Returned?);
    if madeInTry && failingCalls >= 1
    then Settlement(decoded.Value?, [first, ChannelCall(deliveryTag, Nack(true), false)])
    else Settlement(decoded.Value?, [first])
  }

  /** The action that took effect: the first call that did not throw. */
  function Effective(s: Settlement, failingCalls: nat): Option<Action> {
    if failingCalls < |s.calls| then Some(s.calls[failingCalls].action) else None
  }

  /** With a working channel every delivery gets exactly one call, on its
      own tag, and that call carries the table's action. */
  lemma SettlesExactlyOnce(deliveryTag: nat, decoded: Decoded<SensorEvent>, handler: HandlerOutcome)
    ensures var s := OnMessageReceived(deliveryTag, decoded, handler, 0);
            |s.calls| == 1 && Effective(s, 0) == Some(Decide(decoded, handler))
  {
  }

  /** When the first call throws, a verdict reached inside the `try` is
      replaced by a requeue (so even a `null` message goes back on the
      queue), while a verdict reached in a `catch` is lost. */
  lemma FirstCallFailing(deliveryTag: nat, decoded: Decoded<SensorEvent>, handler: HandlerOutcome)
    ensures var s := OnMessageReceived(deliveryTag, decoded, handler, 1);
            Effective(s, 1) == (if decoded.NullLiteral? || (decoded.Value? && handler.Returned?)
                                then Some(Nack(true)) else None)
  {
  }

  /** A message is dropped for good only when it cannot be decoded into an
      event or its handler threw `JsonException`; an event whose handler
      returned, was cancelled or threw anything else is requeued or
      acknowledged, never dropped. */
  lemma DroppedOnlyWhenUndecodable(deliveryTag: nat, decoded: Decoded<SensorEvent>, handler: HandlerOutcome,
                                    failingCalls: nat)
    ensures Effective(OnMessageReceived(deliveryTag, decoded, handler, failingCalls), failingCalls) == Some(Nack(false))
            ==> !decoded.Value? || handler == ThrewJson
  {
  }
}

=== FILE: contracts.dfy ===
/** The wire contract shared by the poller and the consumer
    (`Shared.Contracts.SensorEvent`, `Measurement`, `StatusLevel`) and the
    poller's per-station configuration (`StationConfig`). */
module Contracts {
  import opened Wrappers

  /** A point in time, as the tick count of a .NET `DateTime`. The pipeline
      only ever compares two of them, so nothing else about them is modelled. */
  type Instant = int

  /** A latitude or longitude. The source holds a `double` that is copied
      around and never computed on; the model never computes on it either. */
  type Coordinate = real

  datatype StatusLevel = INFO | WARN | ERROR

  /** `StatusLevel.ToString()`, the text stored in `sensor_events.status_level`. */
  function StatusLevelText(level: StatusLevel): (t: string)
    ensures |t| == 4 || |t| == 5
  {
    match level
    case INFO => "INFO"
    case WARN => "WARN"
    case ERROR => "ERROR"
  }

  /** Reading a stored status level back: the inverse of `StatusLevelText`. */
  function ParseStatusLevel(t: string): Option<StatusLevel> {
    if t == "INFO" then Some(INFO)
    else if t == "WARN" then Some(WARN)
    else if t == "ERROR" then Some(ERROR)
    else None
  }

  lemma StatusLevelTextRoundTrip(level: StatusLevel)
    ensures ParseStatusLevel(StatusLevelText(level)) == Some(level)
  {
  }

  /** One normalised reading: value kept as text, unit optional. */
  datatype Measurement = Measurement(name: string, value: string, unit: Option<string>)

  /** The canonical event published by the poller and persisted by the consumer. */
  datatype SensorEvent = SensorEvent(
    eventId: string,
    sensorId: string,
    sourceType: string,
    payloadType: string,
    payloadSizeBytes: int,
    payloadJson: Option<string>,
    observedAt: Instant,
    receivedAt: Instant,
    statusLevel: StatusLevel,
    statusMessage: Option<string>,
    measurements: seq<Measurement>,
    lat: Option<Coordinate>,
    lon: Option<Coordinate>,
    blobUri: Option<string>,
    blobSha256: Option<string>,
    blobBytes: Option<int>)

  const DefaultSourceType: string := "opensensemap"
  const DefaultPollIntervalSeconds: int := 60

  /** One configured station. `SourceType` and `PollIntervalSeconds` have
      defaults; the others are required or plain values. */
  datatype StationConfig = StationConfig(
    sensorId: string,
    name: string,
    url: string,
    sourceType: string,
    pollIntervalSeconds: int,
    lat: Coordinate,
    lon: Coordinate,
    locationId: Option<int>)

  /** A station bound from configuration that sets only the required members. */
  function StationWithDefaults(sensorId: string, name: string, url: string): (s: StationConfig)
    ensures s.sensorId == sensorId && s.name == name && s.url == url
    ensures s.sourceType == "opensensemap" && s.pollIntervalSeconds == 60
    ensures s.lat == 0.0 && s.lon == 0.0 && s.locationId.None?
  {
    StationConfig(sensorId, name, url, DefaultSourceType, DefaultPollIntervalSeconds, 0.0, 0.0, None)
  }
}

=== FILE: ingest.dfy ===
/** The consumer's persistence path: the duplicate check
    (`EventDeduplicator`), the transactional writer (`PostgresWriter`) and
    the handler that chains them (`HandleEventAsync`). Each database call
    may throw; a failure point is an input. */
module Ingest {
  import opened Wrappers
  import opened Contracts
  import opened Json
  import opened Store
  import Consumer

  // ---------------------------------------------------------------------
  // The `measurements` column.

  /** `JsonSerializer.Serialize` of one `Measurement`: PascalCase member
      names, a missing unit written as `null`. */
  function MeasurementJson(m: Measurement): Json {
    JObject([Member("Name", JString(m.name)), Member("Value", JString(m.value)),
             Member("Unit", if m.unit.Some? then JString(m.unit.value) else JNull)])
  }

  /** `JsonSerializer.Serialize(sensorEvent.Measurements)`: an array, one
      object per measurement, in order. */
  function MeasurementsJson(ms: seq<Measurement>): (j: Json)
    ensures j.JArray? && |j.items| == |ms|
    ensures forall i :: 0 <= i < |ms| ==> j.items[i] == MeasurementJson(ms[i])
  {
    JArray(seq(|ms|, i requires 0 <= i < |ms| => MeasurementJson(ms[i])))
  }

  /** The `sensor_events` row the writer binds for an event. */
  function EventRowOf(e: SensorEvent): (row: EventRow)
    ensures row.eventId == e.eventId && row.sensorId == e.sensorId && row.sourceType == e.sourceType
    ensures row.payloadType == e.payloadType && row.payloadSizeB == e.payloadSizeBytes
    ensures row.observedAt == e.observedAt && row.receivedAt == e.receivedAt
    ensures ParseStatusLevel(row.statusLevel) == Some(e.statusLevel)
    ensures row.statusMessage == e.statusMessage
    ensures row.measurements == Some(MeasurementsJson(e.measurements))
    ensures |row.measurements.value.items| == |e.measurements|
  {
    StatusLevelTextRoundTrip(e.statusLevel);
    EventRow(e.eventId, e.sensorId, e.sourceType, e.payloadType, e.payloadSizeBytes, e.observedAt,
             e.receivedAt, StatusLevelText(e.statusLevel), e.statusMessage, Some(MeasurementsJson(e.measurements)))
  }

  // ---------------------------------------------------------------------
  // The duplicate check.

  /** `IsNewEventAsync`: true exactly when no row has the id. It only
      reads; a database error is rethrown rather than turned into an
      answer. */
  function IsNewEvent(db: Db, eventId: string, dbFails: bool): (r: Result<bool, string>)
    ensures r.Failure? <==> dbFails
    ensures r.Success? ==> (r.value <==> !HasEvent(db.events, eventId))
  {
    if dbFails then Failure("Error checking event duplication for " + eventId)
    else Success(|CheckEventExists(db, eventId)| == 0)
  }

  // ---------------------------------------------------------------------
  // The writer.

  /** Where the writer's work can throw: opening the connection or the
      transaction (before the `try`), either statement, or the commit. */
  datatype WriteFault = NoFault | FailsOpening | FailsUpsert | FailsInsert | FailsCommit

  /** `WriteEventAsync`, returning the committed database with the outcome.
      One transaction upserts the sensor (display name = sensor id, no
      coordinates; the event's `Lat`/`Lon` are ignored) and inserts the
      event; the result is whether the insert touched a row. On any fault
      the transaction rolls back and the exception is rethrown. */
  function WriteEvent(db: Db, e: SensorEvent, now: Instant, fault: WriteFault): (r: (Db, Result<bool, string>))
    ensures r.1.Failure? <==> fault != NoFault
    ensures r.1.Failure? ==> r.0 == db
    ensures r.1.Success? ==>
              && (r.1.value <==> !HasEvent(db.events, e.eventId))
              && HasEvent(r.0.events, e.eventId)
              && (r.1.value ==> r.0.events == db.events + [EventRowOf(e)])
              && (!r.1.value ==> r.0.events == db.events)
              && r.0.sensors.Keys == db.sensors.Keys + {e.sensorId}
              && (forall k :: k in db.sensors && k != e.sensorId ==> r.0.sensors[k] == db.sensors[k])
              && r.0.sensors[e.sensorId].sensorId == e.sensorId
              && r.0.sensors[e.sensorId].displayName == Some(e.sensorId)
              && r.0.sensors[e.sensorId].sourceType == e.sourceType
              && r.0.sensors[e.sensorId].lat.None? && r.0.sensors[e.sensorId].lon.None?
              && r.0.sensors[e.sensorId].updatedAt == now
              && r.0.sensors[e.sensorId].createdAt
                 == (if e.sensorId in db.sensors then db.sensors[e.sensorId].createdAt else now)
  {
    if fault != NoFault then (db, Failure("Failed to write event to database: " + e.eventId))
    else
      var upserted := UpsertSensor(db, e.sensorId, e.sourceType, Some(e.sensorId), None, None, now);
      var (inserted, rowsAffected) := InsertEvent(upserted, EventRowOf(e));
      assert rowsAffected == 1 ==> inserted.events == db.events + [EventRowOf(e)];
      (inserted, Success(rowsAffected > 0))
  }

  /** The writer keeps `event_id` unique. */
  lemma WriteKeepsIdsUnique(db: Db, e: SensorEvent, now: Instant, fault: WriteFault)
    requires UniqueEventIds(db.events)
    ensures UniqueEventIds(WriteEvent(db, e, now, fault).0.events)
  {
    if fault == NoFault {
      var upserted := UpsertSensor(db, e.sensorId, e.sourceType, Some(e.sensorId), None, None, now);
      InsertKeepsIdsUnique(upserted, EventRowOf(e));
    }
  }

  /** Writing the same event twice answers true, then false, and leaves one
      row for its id. */
  lemma WriteTwice(db: Db, e: SensorEvent, now1: Instant, now2: Instant)
    requires UniqueEventIds(db.events) && !HasEvent(db.events, e.eventId)
    ensures var (db1, r1) := WriteEvent(db, e, now1, NoFault);
            var (db2, r2) := WriteEvent(db1, e, now2, NoFault);
            r1 == Success(true) && r2 == Success(false) && CountEvent(db2.events, e.eventId) == 1
  {
    var (db1, r1) := WriteEvent(db, e, now1, NoFault);
    WriteKeepsIdsUnique(db, e, now1, NoFault);
    WriteKeepsIdsUnique(db1, e, now2, NoFault);
    var (db2, r2) := WriteEvent(db1, e, now2, NoFault);
    UniqueMeansOneRow(db2.events, e.eventId);
  }

  /** After a successful write the duplicate check calls the event old. */
  lemma WrittenIsNotNew(db: Db, e: SensorEvent, now: Instant)
    ensures IsNewEvent(WriteEvent(db, e, now, NoFault).0, e.eventId, false) == Success(false)
  {
  }

  // ---------------------------------------------------------------------
  // The handler.

  /** What can happen during one call of the handler: the duplicate check
      may throw; another consumer may commit its own write between the
      check and this write; the write may fail. */
  datatype HandlerRun = HandlerRun(dedupFails: bool, interleaved: Option<SensorEvent>, fault: WriteFault)

  /** `HandleEventAsync`, returning the committed database and the verdict
      that tells the consumer whether to acknowledge. A known event and a
      write that lost a race both count as handled; only an exception
      makes the verdict false. */
  function HandleEvent(db: Db, e: SensorEvent, now: Instant, run: HandlerRun): (r: (Db, bool))
    ensures !r.1 <==> run.dedupFails || (!HasEvent(db.events, e.eventId) && run.fault != NoFault)
    ensures r.1 ==> HasEvent(r.0.events, e.eventId)
    ensures HasEvent(db.events, e.eventId) ==> r.0 == db
  {
    match IsNewEvent(db, e.eventId, run.dedupFails)
    case Failure(_) => (db, false)
    case Success(isNew) =>
      if !isNew then (db, true)
      else
        var raced := if run.interleaved.Some? then WriteEvent(db, run.interleaved.value, now, NoFault).0 else db;
        var (written, outcome) := WriteEvent(raced, e, now, run.fault);
        match outcome
        case Failure(_) => (written, false)
        case Success(_) => (written, true)
  }

  /** The handler, and a racing writer, keep `event_id` unique. */
  lemma HandleKeepsIdsUnique(db: Db, e: SensorEvent, now: Instant, run: HandlerRun)
    requires UniqueEventIds(db.events)
    ensures UniqueEventIds(HandleEvent(db, e, now, run).0.events)
  {
    if !run.dedupFails && !HasEvent(db.events, e.eventId) {
      var raced := db;
      if run.interleaved.Some? {
        WriteKeepsIdsUnique(db, run.interleaved.value, now, NoFault);
        raced := WriteEvent(db, run.interleaved.value, now, NoFault).0;
      }
      WriteKeepsIdsUnique(raced, e, now, run.fault);
    }
  }

  /** Effectively-once storage: delivering the same event twice, with any
      racing writer between check and write on either delivery and no
      faults, stores exactly one row for it and acknowledges both. */
  lemma HandleTwiceStoresOnce(db: Db, e: SensorEvent, now1: Instant, now2: Instant,
                              race1: Option<SensorEvent>, race2: Option<SensorEvent>)
    requires UniqueEventIds(db.events)
    ensures var (db1, ok1) := HandleEvent(db, e, now1, HandlerRun(false, race1, NoFault));
            var (db2, ok2) := HandleEvent(db1, e, now2, HandlerRun(false, race2, NoFault));
            ok1 && ok2 && CountEvent(db2.events, e.eventId) == 1
  {
    var (db1, ok1) := HandleEvent(db, e, now1, HandlerRun(false, race1, NoFault));
    HandleKeepsIdsUnique(db, e, now1, HandlerRun(false, race1, NoFault));
    HandleKeepsIdsUnique(db1, e, now2, HandlerRun(false, race2, NoFault));
    var (db2, ok2) := HandleEvent(db1, e, now2, HandlerRun(false, race2, NoFault));
    UniqueMeansOneRow(db2.events, e.eventId);
  }

  /** The race itself: when the racing writer stored this very event, the
      handler's own insert touches no row, yet the event is acknowledged
      and stored once. */
  lemma LostRaceIsAcknowledged(db: Db, e: SensorEvent, now: Instant)
    requires UniqueEventIds(db.events) && !HasEvent(db.events, e.eventId)
    ensures var raced := WriteEvent(db, e, now, NoFault).0;
            && WriteEvent(raced, e, now, NoFault).1 == Success(false)
            && var (db', ok) := HandleEvent(db, e, now, HandlerRun(false, Some(e), NoFault));
               ok && CountEvent(db'.events, e.eventId) == 1
  {
    HandleKeepsIdsUnique(db, e, now, HandlerRun(false, Some(e), NoFault));
    var (db', ok) := HandleEvent(db, e, now, HandlerRun(false, Some(e), NoFault));
    UniqueMeansOneRow(db'.events, e.eventId);
  }

  /** From delivery to acknowledgement: the consumer acknowledges an event
      only once it is stored, requeues it exactly when the duplicate check
      threw or the write of a new event failed, and never drops it, because
      this handler returns a verdict instead of throwing. */
  lemma AcknowledgedOnlyWhenStored(db: Db, e: SensorEvent, now: Instant, run: HandlerRun)
    ensures var (db', handled) := HandleEvent(db, e, now, run);
            var action := Consumer.Decide(Value(e), Consumer.Returned(handled));
            && (action == Consumer.Ack ==> HasEvent(db'.events, e.eventId))
            && (action == Consumer.Nack(true) <==> run.dedupFails || (!HasEvent(db.events, e.eventId) && run.fault != NoFault))
            && action != Consumer.Nack(false)
  {
  }
}

=== FILE: json.dfy ===
/** The JSON documents the pipeline handles, abstracted from their text:
    the outcome of `JsonSerializer.Deserialize<T>` and a JSON value (the
    `jsonb` column the read side walks with `JsonElement`). */
module Json {
  import opened Wrappers

  /** What `JsonSerializer.Deserialize<T>(text)` gives: a `JsonException`
      with its message, `null` for the literal `null`, or a value. */
  datatype Decoded<+T> = Malformed(message: string) | NullLiteral | Value(value: T)

  datatype Json =
    | JNull
    | JTrue
    | JFalse
    | JNumber(text: string)
    | JString(s: string)
    | JArray(items: seq<Json>)
    | JObject(members: seq<Member>)

  datatype Member = Member(key: string, value: Json)

  /** `JsonElement.TryGetProperty`: ordinal, case-sensitive, and the LAST
      member wins when a key is repeated. Only defined on objects. */
  function Property(members: seq<Member>, key: string): (r: Option<Json>)
    ensures r.Some? <==> exists i :: 0 <= i < |members| && members[i].key == key
    ensures r.Some? ==> exists i :: 0 <= i < |members| && members[i].key == key && members[i].value == r.value
  {
    if |members| == 0 then None
    else if members[|members| - 1].key == key then Some(members[|members| - 1].value)
    else
      var r := Property(members[..|members| - 1], key);
      assert forall i :: 0 <= i < |members| - 1 ==> members[..|members| - 1][i] == members[i];
      r
  }

  /** A member whose key no later member repeats is the one found. */
  lemma {:induction false} PropertyOfLastKey(members: seq<Member>, i: nat)
    requires i < |members|
    requires forall j :: i < j < |members| ==> members[j].key != members[i].key
    ensures Property(members, members[i].key) == Some(members[i].value)
    decreases |members|
  {
    if i < |members| - 1 {
      var front := members[..|members| - 1];
      assert front[i] == members[i];
      PropertyOfLastKey(front, i);
    }
  }
}

=== FILE: open_sense_map.dfy ===
/** The openSenseMap parser (`OpenSenseMapParser`): a box document whose
    sensors each carry their last measurement becomes one measurement per
    sensor that has a value, named by the sensor's title. */
module OpenSenseMap {
  import opened Wrappers
  import opened Contracts
  import opened Json
  import opened Parsing

  // The deserialised response shape (member names matched case-insensitively
  // by the deserialiser; the model starts from the deserialised value).

  datatype LastMeasurementInfo = LastMeasurementInfo(value: Option<string>, createdAt: Option<string>)

  datatype SensorInfo = SensorInfo(
    title: Option<string>,
    unit: Option<string>,
    sensorType: Option<string>,
    icon: Option<string>,
    id: Option<string>,
    lastMeasurement: Option<LastMeasurementInfo>)

  datatype LocationInfo = LocationInfo(coordinates: Option<seq<Coordinate>>, kind: Option<string>)

  datatype Response = Response(
    id: Option<string>,
    name: Option<string>,
    createdAt: Option<string>,
    updatedAt: Option<string>,
    currentLocation: Option<LocationInfo>,
    sensors: Option<seq<SensorInfo>>,
    lastMeasurementAt: Option<string>)

  /** `sensor.LastMeasurement?.Value != null` */
  predicate HasValue(s: SensorInfo) {
    s.lastMeasurement.Some? && s.lastMeasurement.value.value.Some?
  }

  /** The measurement a sensor with a value becomes. */
  function SensorMeasurement(s: SensorInfo): (m: Measurement)
    requires HasValue(s)
    ensures m.value == s.lastMeasurement.value.value.value && m.unit == s.unit
    ensures m.name == (if s.title.Some? then s.title.value else "unknown")
  {
    Measurement(s.title.GetOr("unknown"), s.lastMeasurement.value.value.value, s.unit)
  }

  /** `DateTime.TryParse(sensor.LastMeasurement.CreatedAt, ...)` with the
      current culture; a missing `createdAt` does not parse. */
  function SensorTime(s: SensorInfo, parseLocal: string -> Option<Instant>): Option<Instant>
    requires HasValue(s)
  {
    var created := s.lastMeasurement.value.createdAt;
    if created.Some? then parseLocal(created.value) else None
  }

  // ---------------------------------------------------------------------
  // The parser as written: one loop threading the list and `ref observedAt`.

  /** The body of `foreach (var sensor in openSenseData.Sensors)`. */
  function SensorStep(s: SensorInfo, parseLocal: string -> Option<Instant>,
                      acc: (seq<Measurement>, Option<Instant>)): (seq<Measurement>, Option<Instant>)
  {
    if !HasValue(s) then acc
    else
      var t := SensorTime(s, parseLocal);
      (acc.0 + [SensorMeasurement(s)], if t.Some? then Later(acc.1, t.value) else acc.1)
  }

  function AddSensors(sensors: seq<SensorInfo>, parseLocal: string -> Option<Instant>,
                      acc: (seq<Measurement>, Option<Instant>)): (seq<Measurement>, Option<Instant>)
    decreases |sensors|
  {
    if |sensors| == 0 then acc
    else AddSensors(sensors[1..], parseLocal, SensorStep(sensors[0], parseLocal, acc))
  }

  const InvalidStructureMessage: string := "Invalid response structure"

  /** `OpenSenseMapParser.Parse`. `body` is the response text that `decoded`
      was deserialised from; it feeds the `raw` fallback. When nothing at
      all is in the list afterwards (the test is on the caller's whole list,
      not on what this call added), the parser warns and stores the start
      of the body instead. */
  function Parse(body: string, decoded: Decoded<Response>, parseLocal: string -> Option<Instant>,
                 st: ParseState): (r: Result<ParseState, string>)
    ensures decoded.Malformed? <==> r.Failure?
    ensures decoded.Malformed? ==> r.error == decoded.message
    ensures (decoded.NullLiteral? || (decoded.Value? && decoded.value.sensors.None?)) ==>
              r == Success(st.(level := WARN, message := InvalidStructureMessage))
    ensures decoded.Value? && decoded.value.sensors.Some? ==>
              var sensors := decoded.value.sensors.value;
              && r.Success?
              && r.value.observedAt == LatestOf(st.observedAt, Times(sensors, parseLocal))
              && (if st.measurements + Kept(sensors) == []
                  then r.value == ParseState([RawMeasurement(body)], r.value.observedAt, WARN, NoMeasurementsMessage)
                  else r.value == st.(measurements := st.measurements + Kept(sensors),
                                      observedAt := r.value.observedAt))
  {
    match decoded
    case Malformed(msg) => Failure(msg)
    case NullLiteral => Success(st.(level := WARN, message := InvalidStructureMessage))
    case Value(response) =>
      if response.sensors.None? then Success(st.(level := WARN, message := InvalidStructureMessage))
      else
        var sensors := response.sensors.value;
        var (ms, observed) := AddSensors(sensors, parseLocal, (st.measurements, st.observedAt));
        AddSensorsMeetsReference(sensors, parseLocal, (st.measurements, st.observedAt));
        if |ms| == 0
        then Success(ParseState([RawMeasurement(body)], observed, WARN, NoMeasurementsMessage))
        else Success(st.(measurements := ms, observedAt := observed))
  }

  // ---------------------------------------------------------------------
  // Reference definitions.

  /** One measurement per sensor that has a value, in order. */
  function Kept(sensors: seq<SensorInfo>): seq<Measurement>
    decreases |sensors|
  {
    if |sensors| == 0 then []
    else if HasValue(sensors[0]) then [SensorMeasurement(sensors[0])] + Kept(sensors[1..])
    else Kept(sensors[1..])
  }

  /** The parseable `createdAt` times of the sensors that have a value. */
  function Times(sensors: seq<SensorInfo>, parseLocal: string -> Option<Instant>): seq<Instant>
    decreases |sensors|
  {
    if |sensors| == 0 then []
    else
      var s := sensors[0];
      if HasValue(s) && SensorTime(s, parseLocal).Some?
      then [SensorTime(s, parseLocal).value] + Times(sensors[1..], parseLocal)
      else Times(sensors[1..], parseLocal)
  }

  /** The loop appends `Kept` and folds `Times` into the observed time. */
  lemma {:induction false} AddSensorsMeetsReference(
    sensors: seq<SensorInfo>, parseLocal: string -> Option<Instant>, acc: (seq<Measurement>, Option<Instant>))
    ensures AddSensors(sensors, parseLocal, acc)
         == (acc.0 + Kept(sensors), LatestOf(acc.1, Times(sensors, parseLocal)))
    decreases |sensors|
  {
    if |sensors| == 0 {
      AppendEmpty(acc.0);
    } else {
      var s := sensors[0];
      var acc' := SensorStep(s, parseLocal, acc);
      AddSensorsMeetsReference(sensors[1..], parseLocal, acc');
      if HasValue(s) {
        AppendIsAssociative(acc.0, [SensorMeasurement(s)], Kept(sensors[1..]));
      }
    }
  }

  /** A measurement is kept exactly when it is what some sensor with a value
      becomes. */
  lemma {:induction false} KeptIsFromSensorsWithValues(sensors: seq<SensorInfo>)
    ensures forall m :: m in Kept(sensors) <==>
              exists i :: 0 <= i < |sensors| && HasValue(sensors[i]) && m == SensorMeasurement(sensors[i])
    decreases |sensors|
  {
    if |sensors| > 0 {
      KeptIsFromSensorsWithValues(sensors[1..]);
      forall m | m in Kept(sensors)
        ensures exists i :: 0 <= i < |sensors| && HasValue(sensors[i]) && m == SensorMeasurement(sensors[i])
      {
        if HasValue(sensors[0]) && m == SensorMeasurement(sensors[0]) {
        } else {
          assert m in Kept(sensors[1..]);
          var j :| 0 <= j < |sensors[1..]| && HasValue(sensors[1..][j]) && m == SensorMeasurement(sensors[1..][j]);
          assert sensors[j + 1] == sensors[1..][j];
        }
      }
      forall i | 0 <= i < |sensors| && HasValue(sensors[i])
        ensures SensorMeasurement(sensors[i]) in Kept(sensors)
      {
        if i > 0 {
          assert sensors[i] == sensors[1..][i - 1];
        }
      }
    }
  }

  /** One measurement per sensor with a value: no more than the sensors. */
  lemma {:induction false} KeptLength(sensors: seq<SensorInfo>)
    ensures |Kept(sensors)| <= |sensors|
    ensures (forall i :: 0 <= i < |sensors| ==> HasValue(sensors[i])) ==> |Kept(sensors)| == |sensors|
    decreases |sensors|
  {
    if |sensors| > 0 {
      KeptLength(sensors[1..]);
      assert forall i :: 0 <= i < |sensors[1..]| ==> sensors[1..][i] == sensors[i + 1];
    }
  }
}

=== FILE: parsing.dfy ===
/** What the two source parsers share: the state they update in place (the
    caller-owned measurement list and the three `ref` arguments), the
    "keep the later timestamp" step, and the synthetic `raw` measurement. */
module Parsing {
  import opened Wrappers
  import opened Text
  import opened Contracts

  /** The caller-owned list and the `ref observedAt`, `ref statusLevel`,
      `ref statusMessage` arguments of `Parse`, as one value. */
  datatype ParseState = ParseState(
    measurements: seq<Measurement>,
    observedAt: Option<Instant>,
    level: StatusLevel,
    message: string)

  /** What `PollStation` passes in: an empty list, no time, INFO "OK". */
  const Initial: ParseState := ParseState([], None, INFO, "OK")

  /** `if (observedAt == null || t > observedAt) observedAt = t;` */
  function Later(o: Option<Instant>, t: Instant): (r: Option<Instant>)
    ensures r.Some? && t <= r.value
    ensures o.Some? ==> o.value <= r.value
    ensures r == Some(t) || r == o
  {
    if o.None? || t > o.value then Some(t) else o
  }

  /** The running value after the `Later` step has seen every time in `ts`. */
  function LatestOf(o: Option<Instant>, ts: seq<Instant>): Option<Instant>
    decreases |ts|
  {
    if |ts| == 0 then o else LatestOf(Later(o, ts[0]), ts[1..])
  }

  /** `r` is the largest of `o` (when present) and the times in `ts`,
      and absent exactly when there is nothing to take the largest of. */
  ghost predicate IsMaximum(r: Option<Instant>, o: Option<Instant>, ts: seq<Instant>) {
    && (r.None? <==> (o.None? && |ts| == 0))
    && (r.Some? ==>
          && (o.Some? ==> o.value <= r.value)
          && (forall i :: 0 <= i < |ts| ==> ts[i] <= r.value)
          && (o == r || exists i :: 0 <= i < |ts| && ts[i] == r.value))
  }

  /** Folding `Later` computes the maximum: the observed time never moves
      backwards and ends at the latest candidate. */
  lemma {:induction false} LatestOfIsMaximum(o: Option<Instant>, ts: seq<Instant>)
    ensures IsMaximum(LatestOf(o, ts), o, ts)
    decreases |ts|
  {
    if |ts| > 0 {
      var o' := Later(o, ts[0]);
      LatestOfIsMaximum(o', ts[1..]);
      var r := LatestOf(o, ts);
      assert r == LatestOf(o', ts[1..]);
      assert forall i :: 1 <= i < |ts| ==> ts[i] == ts[1..][i - 1];
      if o' != r {
        var j :| 0 <= j < |ts[1..]| && ts[1..][j] == r.value;
        assert ts[j + 1] == r.value;
      }
    }
  }

  lemma AppendIsAssociative<T>(a: seq<T>, b: seq<T>, c: seq<T>)
    ensures a + b + c == a + (b + c)
  {
  }

  lemma AppendEmpty<T>(a: seq<T>)
    ensures a + [] == a
  {
  }

  lemma AppendEmptyLeft<T>(a: seq<T>)
    ensures [] + a == a
  {
  }

  /** The warning both parsers give when a response yields nothing usable. */
  const NoMeasurementsMessage: string := "No measurements available"

  /** At most this many characters of the body go into a `raw` measurement. */
  const RawLimit: nat := 200

  /** The synthetic measurement carrying the start of an unusable body. */
  function RawMeasurement(body: string): (m: Measurement)
    ensures m.name == "raw" && m.unit.None?
    ensures |m.value| == (if |body| < RawLimit then |body| else RawLimit)
    ensures m.value == body[..|m.value|]
  {
    Measurement("raw", Left(body, RawLimit), None)
  }
}

=== FILE: poller.dfy ===
/** One poll of one station (`PollerService.PollStation`): fetch the body
    with bounded retries, pick a parser by source type, fall back on a
    parse error, assemble the event and hand it to the publisher. The
    HTTP exchange, the JSON deserialiser, the clock, the hash and the
    publisher are inputs. */
module Poller {
  import opened Wrappers
  import opened Text
  import opened Contracts
  import opened Json
  import opened Parsing
  import SensorCommunity
  import OpenSenseMap
  import Publisher

  // ---------------------------------------------------------------------
  // Fetching with retries.

  const MaxHttpAttempts: int := 3

  /** What one `GetAsync` call gives: a response with its status code and
      body text, a transport failure (`HttpRequestException`), or the
      30-second client timeout (`TaskCanceledException`). */
  datatype Exchange = Reply(status: int, body: string) | Unreachable | NoReplyInTime

  /** The exception a poll can end in. `HttpRequestError` stands for
      `HttpRequestException`; `TimedOut` for the timeout's
      `TaskCanceledException`, which is an `OperationCanceledException`;
      `OtherError` for anything else (a failed publish, say). */
  datatype Fault = HttpRequestError | TimedOut | OtherError

  /** 429 Too Many Requests (section 4 of RFC 6585) or any 5xx server
      error (section 15.6 of RFC 9110). */
  predicate IsTransient(status: int) {
    status == 429 || status >= 500
  }

  /** What `EnsureSuccessStatusCode` accepts. */
  predicate IsSuccessStatus(status: int) {
    200 <= status <= 299
  }

  /** The jitter `Random.Shared.Next(100, 500)` draws. */
  predicate ValidJitters(jitters: seq<int>) {
    forall i :: 0 <= i < |jitters| ==> 100 <= jitters[i] < 500
  }

  function Pow2(n: nat): (r: nat)
    ensures r >= 1
  {
    if n == 0 then 1 else 2 * Pow2(n - 1)
  }

  /** `CalculateRetryDelayWithJitter`, in milliseconds. Beyond attempt 23
      the 32-bit product `500 * 2^(attempt-1)` would overflow. */
  function RetryDelayMs(attempt: int, jitter: int): (ms: int)
    requires 1 <= attempt <= 23
    requires 100 <= jitter < 500
    ensures 600 <= ms < 5500
    ensures attempt == 1 ==> ms == 500 + jitter
    ensures attempt == 2 ==> ms == 1000 + jitter
    ensures attempt == 3 ==> ms == 2000 + jitter
    ensures attempt == 4 ==> ms == 4000 + jitter
    ensures attempt >= 5 ==> ms == 5000 + jitter
  {
    var exponential := 500 * Pow2(attempt - 1);
    Pow2AtLeast(attempt - 1);
    assert Pow2(1) == 2 && Pow2(2) == 4 && Pow2(3) == 8;
    (if exponential < 5000 then exponential else 5000) + jitter
  }

  lemma {:induction false} Pow2AtLeast(n: nat)
    ensures n >= 4 ==> Pow2(n) >= 16
    ensures Pow2(n) >= n + 1
  {
    if n > 0 {
      Pow2AtLeast(n - 1);
    }
  }

  /** Up to the 5000 ms cap, a later attempt always waits longer than an
      earlier one, whatever the two jitters. */
  lemma RetryDelayGrows(a: int, b: int, ja: int, jb: int)
    requires 1 <= a < b <= 5
    requires 100 <= ja < 500 && 100 <= jb < 500
    ensures RetryDelayMs(a, ja) < RetryDelayMs(b, jb)
  {
    assert Pow2(0) == 1 && Pow2(1) == 2 && Pow2(2) == 4 && Pow2(3) == 8 && Pow2(4) == 16;
  }

  /** With three attempts only the first two can be retried: they wait
      0.5 s and 1 s plus the jitter. */
  lemma RetriedDelays(jitter: int)
    requires 100 <= jitter < 500
    ensures RetryDelayMs(1, jitter) == 500 + jitter
    ensures RetryDelayMs(2, jitter) == 1000 + jitter
  {
    assert Pow2(1) == 2;
  }

  /** The result of `FetchResponseBodyWithRetriesAsync`: the body or the
      exception, how many GET calls were made and the delays slept between
      them. */
  datatype Fetched = Fetched(result: Result<string, Fault>, calls: nat, delaysMs: seq<int>)

  /** How the call that ends the loop settles it: a 2xx response returns
      its body, any other status throws from `EnsureSuccessStatusCode`. */
  function Settle(e: Exchange): (r: Result<string, Fault>)
    ensures r.Success? <==> e.Reply? && IsSuccessStatus(e.status)
    ensures e.NoReplyInTime? <==> r == Failure(TimedOut)
  {
    match e
    case Unreachable => Failure(HttpRequestError)
    case NoReplyInTime => Failure(TimedOut)
    case Reply(status, body) => if IsSuccessStatus(status) then Success(body) else Failure(HttpRequestError)
  }

  /** The `for (attempt = 1; attempt <= MaxHttpAttempts; attempt++)` loop
      from `attempt` on; `replies[k]` answers the (k+1)-th call and
      `jitters[k]` is drawn before the (k+2)-th. */
  function FetchFrom(replies: seq<Exchange>, jitters: seq<int>, attempt: int): (f: Fetched)
    requires 1 <= attempt <= MaxHttpAttempts
    requires |replies| >= MaxHttpAttempts && |jitters| >= MaxHttpAttempts - 1 && ValidJitters(jitters)
    ensures attempt <= f.calls <= MaxHttpAttempts
    ensures |f.delaysMs| == f.calls - attempt
    decreases MaxHttpAttempts - attempt
  {
    var e := replies[attempt - 1];
    if e.Reply? && IsTransient(e.status) && attempt < MaxHttpAttempts then
      var rest := FetchFrom(replies, jitters, attempt + 1);
      rest.(delaysMs := [RetryDelayMs(attempt, jitters[attempt - 1])] + rest.delaysMs)
    else
      Fetched(Settle(e), attempt, [])
  }

  function Fetch(replies: seq<Exchange>, jitters: seq<int>): (f: Fetched)
    requires |replies| >= MaxHttpAttempts && |jitters| >= MaxHttpAttempts - 1 && ValidJitters(jitters)
    ensures 1 <= f.calls <= MaxHttpAttempts
    ensures |f.delaysMs| == f.calls - 1
  {
    FetchFrom(replies, jitters, 1)
  }

  /** The call with index `k` (0-based) is retried. */
  predicate Retried(replies: seq<Exchange>, k: int)
    requires 0 <= k < |replies|
  {
    replies[k].Reply? && IsTransient(replies[k].status) && k + 1 < MaxHttpAttempts
  }

  /** The loop makes calls up to and including the first one that is not
      retried, settles the outcome by that call alone, and sleeps the
      jittered back-off before each retry. */
  lemma {:induction false} FetchMeetsReference(replies: seq<Exchange>, jitters: seq<int>, attempt: int)
    requires 1 <= attempt <= MaxHttpAttempts
    requires |replies| >= MaxHttpAttempts && |jitters| >= MaxHttpAttempts - 1 && ValidJitters(jitters)
    ensures var f := FetchFrom(replies, jitters, attempt);
            && (forall k :: attempt - 1 <= k < f.calls - 1 ==> Retried(replies, k))
            && !Retried(replies, f.calls - 1)
            && f.result == Settle(replies[f.calls - 1])
            && (forall k :: 0 <= k < |f.delaysMs| ==>
                  f.delaysMs[k] == RetryDelayMs(attempt + k, jitters[attempt - 1 + k]))
    decreases MaxHttpAttempts - attempt
  {
    if Retried(replies, attempt - 1) {
      FetchMeetsReference(replies, jitters, attempt + 1);
      var rest := FetchFrom(replies, jitters, attempt + 1);
      var f := FetchFrom(replies, jitters, attempt);
      assert f.delaysMs == [RetryDelayMs(attempt, jitters[attempt - 1])] + rest.delaysMs;
      forall k | 0 < k < |f.delaysMs|
        ensures f.delaysMs[k] == RetryDelayMs(attempt + k, jitters[attempt - 1 + k])
      {
        assert f.delaysMs[k] == rest.delaysMs[k - 1];
      }
    }
  }

  /** `[503, 200]` makes two calls and returns the 200's body. */
  lemma RetryThenSuccessExample(body: string, other: Exchange, jitters: seq<int>)
    requires |jitters| >= MaxHttpAttempts - 1 && ValidJitters(jitters)
    ensures var f := Fetch([Reply(503, ""), Reply(200, body), other], jitters);
            f.calls == 2 && f.result == Success(body) && 600 <= f.delaysMs[0] < 1000
  {
    assert Pow2(0) == 1;
  }

  /** `[503, 503, 503]` makes three calls and fails. */
  lemma ThreeServerErrorsExample(jitters: seq<int>)
    requires |jitters| >= MaxHttpAttempts - 1 && ValidJitters(jitters)
    ensures var f := Fetch([Reply(503, ""), Reply(503, ""), Reply(503, "")], jitters);
            f.calls == 3 && f.result == Failure(HttpRequestError) && |f.delaysMs| == 2
  {
  }

  // ---------------------------------------------------------------------
  // Source type and dispatch.

  /** A blank configured source type means openSenseMap; any other is trimmed. */
  function EffectiveSourceType(configured: string): (t: string)
    ensures IsBlank(configured) ==> t == DefaultSourceType
    ensures !IsBlank(configured) ==> t == Trim(configured)
    ensures t != [] && !IsWhiteSpace(t[0]) && !IsWhiteSpace(t[|t| - 1])
  {
    if IsBlank(configured) then
      assert !IsWhiteSpace(DefaultSourceType[0]);
      DefaultSourceType
    else
      TrimOfNonBlankIsNonEmpty(configured);
      TrimFacts(configured);
      Trim(configured)
  }

  /** Deriving the source type a second time changes nothing. */
  lemma EffectiveSourceTypeIsIdempotent(configured: string)
    ensures EffectiveSourceType(EffectiveSourceType(configured)) == EffectiveSourceType(configured)
  {
    var t := EffectiveSourceType(configured);
    assert !IsBlank(t) by { assert !IsWhiteSpace(t[0]); }
    TrimOfTrimmed(t);
  }

  /** The three spellings that select the Sensor.Community parser, compared
      ignoring case; every other source type selects openSenseMap. */
  predicate UsesSensorCommunity(sourceType: string) {
    || EqualsIgnoreCase(sourceType, "sensor-community")
    || EqualsIgnoreCase(sourceType, "sensorcommunity")
    || EqualsIgnoreCase(sourceType, "sensor_community")
  }

  /** The default source type selects openSenseMap. */
  lemma DefaultUsesOpenSenseMap()
    ensures !UsesSensorCommunity(DefaultSourceType)
  {
    assert LowerChar(DefaultSourceType[0]) != LowerChar("sensor-community"[0]);
    assert LowerChar(DefaultSourceType[0]) != LowerChar("sensorcommunity"[0]);
    assert LowerChar(DefaultSourceType[0]) != LowerChar("sensor_community"[0]);
  }

  /** The choice of parser does not depend on letter case. */
  lemma DispatchIgnoresCase(sourceType: string)
    ensures UsesSensorCommunity(ToLowerInvariant(sourceType)) <==> UsesSensorCommunity(sourceType)
  {
    forall i | 0 <= i < |sourceType|
      ensures LowerChar(ToLowerInvariant(sourceType)[i]) == LowerChar(sourceType[i])
    {
    }
  }

  // ---------------------------------------------------------------------
  // Parsing and the parse-error fallback.

  /** The uninterpreted parts of the poller's world: the two timestamp
      parsers, the UTF-8 byte count, the round-trip ("O") time format,
      SHA-256 rendered as lower-case hex, and the JSON serialiser. */
  datatype Environment = Environment(
    parseUtc: string -> Option<Instant>,
    parseLocal: string -> Option<Instant>,
    utf8Length: string -> nat,
    formatRoundTrip: Instant -> string,
    sha256Hex: string -> string,
    serialize: SensorEvent -> string)

  /** What the body deserialises to under each provider's response shape. */
  datatype Documents = Documents(
    community: Decoded<seq<SensorCommunity.Reading>>,
    box: Decoded<OpenSenseMap.Response>)

  const ParseErrorMessageLimit: nat := 250

  /** The `catch (JsonException)` branch: WARN, the exception text cut to
      250 characters, and a `raw` measurement. Neither parser adds anything
      before it deserialises, so nothing else has changed. */
  function ParseErrorFallback(body: string, error: string, st: ParseState): (r: ParseState)
    ensures r.level == WARN && r.observedAt == st.observedAt
    ensures r.measurements == st.measurements + [RawMeasurement(body)]
    ensures |r.message| <= ParseErrorMessageLimit && |r.message| <= |"Parse error: " + error|
    ensures r.message == ("Parse error: " + error)[..|r.message|]
    ensures |r.message| == ParseErrorMessageLimit || r.message == "Parse error: " + error
  {
    ParseState(st.measurements + [RawMeasurement(body)], st.observedAt, WARN,
               Left("Parse error: " + error, ParseErrorMessageLimit))
  }

  /** The dispatch and its fallback, from the state `PollStation` starts with. */
  function ParseBody(sourceType: string, body: string, docs: Documents, env: Environment): (st: ParseState)
  {
    var parsed :=
      if UsesSensorCommunity(sourceType) then SensorCommunity.Parse(docs.community, env.parseUtc, Initial)
      else OpenSenseMap.Parse(body, docs.box, env.parseLocal, Initial);
    match parsed
    case Success(st) => st
    case Failure(error) => ParseErrorFallback(body, error, Initial)
  }

  /** What a poll produces, provider by provider: the Sensor.Community
      measurements alone (possibly none), at least one openSenseMap
      measurement (the `raw` one when no sensor had a value), or exactly
      one `raw` measurement after a parse error. */
  lemma ParseBodyOutcomes(sourceType: string, body: string, docs: Documents, env: Environment)
    ensures var st := ParseBody(sourceType, body, docs, env);
            && (UsesSensorCommunity(sourceType) && docs.community.Value? ==>
                  st.measurements == SensorCommunity.Produced(docs.community.value))
            && (!UsesSensorCommunity(sourceType) && docs.box.Value? && docs.box.value.sensors.Some? ==>
                  |st.measurements| >= 1)
            && ((UsesSensorCommunity(sourceType) && docs.community.Malformed?)
                || (!UsesSensorCommunity(sourceType) && docs.box.Malformed?) ==>
                  st.measurements == [RawMeasurement(body)] && st.level == WARN && st.observedAt.None?)
  {
    var st := ParseBody(sourceType, body, docs, env);
    if UsesSensorCommunity(sourceType) && docs.community.Value? {
      AppendEmptyLeft(SensorCommunity.Produced(docs.community.value));
    }
    if !UsesSensorCommunity(sourceType) && docs.box.Value? && docs.box.value.sensors.Some? {
      AppendEmptyLeft(OpenSenseMap.Kept(docs.box.value.sensors.value));
    }
  }

  // ---------------------------------------------------------------------
  // Event assembly and the event id.

  /** `$"{sensorId}|{observedAt:O}|{payloadBytes}|{payload}"`. */
  function EventIdPreimage(sensorId: string, observedText: string, payloadBytes: nat, payload: string): string {
    sensorId + "|" + (observedText + "|" + (NatToString(payloadBytes) + "|" + payload))
  }

  /** The digest input determines the sensor id, the formatted observed time,
      the byte count and the payload, as long as neither the sensor id nor
      the formatted time contains `|`. */
  lemma EventIdPreimageIsUnambiguous(
    id1: string, t1: string, n1: nat, p1: string,
    id2: string, t2: string, n2: nat, p2: string)
    requires Lacks(id1, '|') && Lacks(id2, '|') && Lacks(t1, '|') && Lacks(t2, '|')
    requires EventIdPreimage(id1, t1, n1, p1) == EventIdPreimage(id2, t2, n2, p2)
    ensures id1 == id2 && t1 == t2 && n1 == n2 && p1 == p2
  {
    JoinIsUnambiguous(id1, id2, '|', t1 + "|" + (NatToString(n1) + "|" + p1), t2 + "|" + (NatToString(n2) + "|" + p2));
    JoinIsUnambiguous(t1, t2, '|', NatToString(n1) + "|" + p1, NatToString(n2) + "|" + p2);
    DigitsLackBar(n1);
    DigitsLackBar(n2);
    JoinIsUnambiguous(NatToString(n1), NatToString(n2), '|', p1, p2);
    NatToStringIsInjective(n1, n2);
  }

  lemma DigitsLackBar(n: nat)
    ensures Lacks(NatToString(n), '|')
  {
  }

  /** `GenerateEventId`. */
  function EventId(env: Environment, sensorId: string, observedAt: Instant, payloadBytes: nat, payload: string): string {
    env.sha256Hex(EventIdPreimage(sensorId, env.formatRoundTrip(observedAt), payloadBytes, payload))
  }

  /** The `SensorEvent` a successful poll publishes. */
  function Assemble(station: StationConfig, sourceType: string, body: string, st: ParseState,
                    env: Environment, receivedAt: Instant): (e: SensorEvent)
    ensures e.sensorId == station.sensorId && e.sourceType == sourceType
    ensures e.payloadType == "json" && e.payloadJson == Some(body)
    ensures e.payloadSizeBytes == env.utf8Length(body)
    ensures e.observedAt == (if st.observedAt.Some? then st.observedAt.value else receivedAt)
    ensures e.receivedAt == receivedAt
    ensures e.statusLevel == st.level && e.statusMessage == Some(st.message)
    ensures e.measurements == st.measurements
    ensures e.lat == Some(station.lat) && e.lon == Some(station.lon)
    ensures e.blobUri.None? && e.blobSha256.None? && e.blobBytes.None?
    ensures e.eventId == EventId(env, station.sensorId, e.observedAt, env.utf8Length(body), body)
  {
    var observedAt := st.observedAt.GetOr(receivedAt);
    var bytes := env.utf8Length(body);
    SensorEvent(EventId(env, station.sensorId, observedAt, bytes, body), station.sensorId, sourceType, "json",
                bytes, Some(body), observedAt, receivedAt, st.level, Some(st.message), st.measurements,
                Some(station.lat), Some(station.lon), None, None, None)
  }

  // ---------------------------------------------------------------------
  // One poll.

  /** Everything one poll meets from outside: the replies to its GET calls,
      the jitters, the deserialised body, the receive time, the Unix time
      of the publish, and whether `BasicPublish` throws. */
  datatype PollInputs = PollInputs(
    replies: seq<Exchange>,
    jitters: seq<int>,
    docs: Documents,
    receivedAt: Instant,
    publishedAtSeconds: int,
    publishFails: bool)

  predicate ValidInputs(p: PollInputs) {
    |p.replies| >= MaxHttpAttempts && |p.jitters| >= MaxHttpAttempts - 1 && ValidJitters(p.jitters)
  }

  /** How `PollStation` ends: it published an event, it absorbed an
      `HttpRequestException` (logging ERROR, publishing nothing, returning
      normally), or it rethrew. */
  datatype PollOutcome =
    | Published(event: SensorEvent, publication: Publisher.Publication)
    | HttpFailureAbsorbed
    | Threw(fault: Fault)

  function PollStation(station: StationConfig, p: PollInputs, env: Environment): (o: PollOutcome)
    requires ValidInputs(p)
    ensures Fetch(p.replies, p.jitters).result == Failure(HttpRequestError) <==> o.HttpFailureAbsorbed?
    ensures o.Threw? ==> o.fault != HttpRequestError
    ensures var fetched := Fetch(p.replies, p.jitters).result;
            fetched.Failure? && fetched.error != HttpRequestError ==> o == Threw(fetched.error)
    ensures Fetch(p.replies, p.jitters).result.Success? && p.publishFails ==> o == Threw(OtherError)
    ensures o.Published? <==> Fetch(p.replies, p.jitters).result.Success? && !p.publishFails
  {
    var sourceType := EffectiveSourceType(station.sourceType);
    match Fetch(p.replies, p.jitters).result
    case Failure(fault) =>
      if fault == HttpRequestError then HttpFailureAbsorbed else Threw(fault)
    case Success(body) =>
      var event := Assemble(station, sourceType, body, ParseBody(sourceType, body, p.docs, env), env, p.receivedAt);
      match Publisher.Publish(event, env.serialize, p.publishedAtSeconds, p.publishFails)
      case Failure(_) => Threw(OtherError)
      case Success(publication) => Published(event, publication)
  }

  /** A published event carries the station's identity and the parsed body,
      and its id is the hash of what it was assembled from. */
  lemma PublishedEventFacts(station: StationConfig, p: PollInputs, env: Environment)
    requires ValidInputs(p)
    requires PollStation(station, p, env).Published?
    ensures var e := PollStation(station, p, env).event;
            var body := Fetch(p.replies, p.jitters).result.value;
            var sourceType := EffectiveSourceType(station.sourceType);
            var st := ParseBody(sourceType, body, p.docs, env);
            && e.sensorId == station.sensorId && e.sourceType == sourceType
            && e.payloadJson == Some(body) && e.measurements == st.measurements
            && e.statusLevel == st.level
            && e.observedAt == st.observedAt.GetOr(p.receivedAt)
            && e.eventId == EventId(env, station.sensorId, e.observedAt, env.utf8Length(body), body)
            && PollStation(station, p, env).publication.properties.messageId == e.eventId
            && PollStation(station, p, env).publication.routingKey == Publisher.RoutingKey(e)
  {
  }

  /** Two polls that fetch the same body and meet the same parse inputs and
      receive time publish the same event, whatever their retry jitters and
      publish times: nothing else goes into the event. */
  lemma EventIdIsDeterministic(station: StationConfig, p: PollInputs, q: PollInputs, env: Environment)
    requires ValidInputs(p) && ValidInputs(q)
    requires Fetch(p.replies, p.jitters).result == Fetch(q.replies, q.jitters).result
    requires p.docs == q.docs && p.receivedAt == q.receivedAt
    requires PollStation(station, p, env).Published? && PollStation(station, q, env).Published?
    ensures PollStation(station, p, env).event == PollStation(station, q, env).event
  {
  }
}

=== FILE: publisher.dfy ===
/** The poller's side of RabbitMQ (`RabbitMqPublisher`): the exchange it
    declares and what `PublishAsync` hands to `BasicPublish` for an event. */
module Publisher {
  import opened Wrappers
  import opened Text
  import opened Contracts

  const ExchangeName: string := "sensor-events"

  datatype ExchangeKind = Direct | Fanout | Topic | Headers

  datatype ExchangeDeclaration = ExchangeDeclaration(name: string, kind: ExchangeKind, durable: bool, autoDelete: bool)

  /** The constructor's `ExchangeDeclare`: a durable topic exchange that is
      not deleted when unused. */
  const Declaration: ExchangeDeclaration := ExchangeDeclaration(ExchangeName, Topic, true, false)

  /** AMQP delivery mode 2: the broker writes the message to disk. */
  const PersistentDeliveryMode: int := 2

  /** The exchange every event goes to: the durable topic exchange
      `sensor-events`, kept when unused. */
  lemma ExchangeSettings()
    ensures Declaration.name == "sensor-events"
    ensures Declaration.kind == Topic
    ensures Declaration.durable && !Declaration.autoDelete
  {
  }

  datatype Properties = Properties(contentType: string, deliveryMode: int, messageId: string, timestampSeconds: int)

  /** One `BasicPublish` call. `body` is the JSON text of the event; its
      UTF-8 encoding is not modelled. */
  datatype Publication = Publication(
    exchange: string, routingKey: string, mandatory: bool, properties: Properties, body: string)

  /** `$"sensor.{SensorId}.{SourceType}"`. */
  function RoutingKey(e: SensorEvent): string {
    "sensor." + (e.sensorId + "." + e.sourceType)
  }

  /** Reading a routing key back: the text after `sensor.` split at its
      first `.`. */
  function SplitRoutingKey(key: string): (r: Option<(string, string)>)
    ensures r.Some? ==> key == "sensor." + (r.value.0 + "." + r.value.1)
    ensures r.Some? ==> Lacks(r.value.0, '.')
  {
    var prefix := "sensor.";
    if |key| < |prefix| || key[..|prefix|] != prefix then None
    else
      var rest := key[|prefix|..];
      assert key == prefix + rest;
      var i := FirstIndex(rest, '.');
      if i == |rest| then None
      else
        FirstIndexFacts(rest, '.');
        var first, second := rest[..i], rest[i + 1..];
        assert rest == first + "." + second;
        Some((first, second))
  }

  /** The routing key gives back the sensor id and source type whenever the
      sensor id has no `.` of its own. */
  lemma RoutingKeyRoundTrip(e: SensorEvent)
    requires Lacks(e.sensorId, '.')
    ensures SplitRoutingKey(RoutingKey(e)) == Some((e.sensorId, e.sourceType))
  {
    var key := RoutingKey(e);
    var rest := e.sensorId + "." + e.sourceType;
    assert key[..7] == "sensor." && key[7..] == rest;
    FirstIndexAfter(e.sensorId, '.', e.sourceType);
    assert rest[..|e.sensorId|] == e.sensorId;
    assert rest[|e.sensorId| + 1..] == e.sourceType;
  }

  /** `PublishAsync`. `serialize` stands for `JsonSerializer.Serialize`,
      `nowSeconds` for the Unix time of the call, and `channelFails` for
      `BasicPublish` throwing; that exception is logged and rethrown, and
      the failure names the event it was for. */
  function Publish(e: SensorEvent, serialize: SensorEvent -> string, nowSeconds: int, channelFails: bool)
    : (r: Result<Publication, string>)
    ensures r.Failure? <==> channelFails
    ensures r.Success? ==>
              && r.value.exchange == Declaration.name && !r.value.mandatory
              && r.value.routingKey == RoutingKey(e)
              && r.value.properties.messageId == e.eventId
              && r.value.properties.contentType == "application/json"
              && r.value.properties.deliveryMode == PersistentDeliveryMode
              && r.value.properties.timestampSeconds == nowSeconds
              && r.value.body == serialize(e)
  {
    if channelFails then Failure(e.eventId)
    else
      Success(Publication(ExchangeName, RoutingKey(e), false,
                          Properties("application/json", PersistentDeliveryMode, e.eventId, nowSeconds),
                          serialize(e)))
  }

  /** Two events whose sensor ids hold no `.` share a routing key only when
      they share sensor id and source type. */
  lemma RoutingKeyIsUnambiguous(a: SensorEvent, b: SensorEvent)
    requires Lacks(a.sensorId, '.') && Lacks(b.sensorId, '.')
    requires RoutingKey(a) == RoutingKey(b)
    ensures a.sensorId == b.sensorId && a.sourceType == b.sourceType
  {
    RoutingKeyRoundTrip(a);
    RoutingKeyRoundTrip(b);
  }
}

=== FILE: repository.dfy ===
/** The dashboard's read side (`SensorRepository`): the lenient decoding of
    the `measurements` column and the three queries, written as functions
    and methods over the two tables. A `JsonElement` access that throws
    `InvalidOperationException` (a property looked up on a non-object, or
    `GetString` on something other than a string or `null`) makes the
    whole query fail, which the model returns as a `Failure`. */
module Repository {
  import opened Wrappers
  import opened Text
  import opened Contracts
  import opened Json
  import opened Store
  import opened Sorting
  import opened Parsing
  import Ingest

  // ---------------------------------------------------------------------
  // Decoding one measurement.

  datatype MeasurementItem = MeasurementItem(name: string, value: string, unit: string)

  /** The exception a `JsonElement` accessor throws for the wrong kind. */
  const InvalidOperation: string := "InvalidOperationException"

  /** `item.TryGetProperty(pascal, out p) || item.TryGetProperty(lower, out p)`:
      the PascalCase key wins, the lower-case one is the fallback. Looking a
      property up on anything but an object throws. */
  function LookUp(item: Json, pascal: string, lower: string): (r: Result<Option<Json>, string>)
    ensures r.Failure? <==> !item.JObject?
    ensures r.Success? && Property(item.members, pascal).Some? ==> r.value == Property(item.members, pascal)
    ensures r.Success? && Property(item.members, pascal).None? ==> r.value == Property(item.members, lower)
  {
    if !item.JObject? then Failure(InvalidOperation)
    else if Property(item.members, pascal).Some? then Success(Property(item.members, pascal))
    else Success(Property(item.members, lower))
  }

  /** `JsonElement.GetString()`: the text of a string, `null` for `null`,
      and an exception for every other kind. */
  function GetString(j: Json): (r: Result<Option<string>, string>)
    ensures r.Failure? <==> !(j.JString? || j.JNull?)
    ensures r.Success? ==> (r.value.Some? <==> j.JString?)
    ensures r.Success? && j.JString? ==> r.value.value == j.s
  {
    match j
    case JString(s) => Success(Some(s))
    case JNull => Success(None)
    case _ => Failure(InvalidOperation)
  }

  /** `JsonElement.ToString()`: a string's text, `""` for `null`, `True` or
      `False` for the literals, and the raw JSON text (`rawText`) for
      numbers, arrays and objects. It never throws. */
  function ElementText(j: Json, rawText: Json -> string): (t: string)
    ensures j.JString? ==> t == j.s
    ensures j.JNull? ==> t == ""
  {
    match j
    case JString(s) => s
    case JNull => ""
    case JTrue => "True"
    case JFalse => "False"
    case _ => rawText(j)
  }

  /** An optional property read with `GetString`; absence reads as `null`. */
  function OptionalString(p: Option<Json>): (r: Result<Option<string>, string>)
    ensures p.None? ==> r == Success(None)
    ensures p.Some? ==> r == GetString(p.value)
  {
    if p.None? then Success(None) else GetString(p.value)
  }

  /** An optional property read with `ToString`, or `null` when absent. */
  function OptionalText(p: Option<Json>, rawText: Json -> string): Option<string> {
    if p.None? then None else Some(ElementText(p.value, rawText))
  }

  /** The name an item carries, when it carries one that is a non-empty
      string under `Name` (or, failing that key, `name`). */
  predicate HasName(item: Json) {
    && item.JObject?
    && var p := LookUp(item, "Name", "name").value;
       p.Some? && p.value.JString? && p.value.s != ""
  }

  /** `ParseMeasurement`: `null` (here `None`) when the name is missing,
      `null` or empty; otherwise the item, with a missing value or unit
      read as `""`. */
  function ParseMeasurement(item: Json, rawText: Json -> string): (r: Result<Option<MeasurementItem>, string>)
    ensures r.Failure? <==>
              || !item.JObject?
              || OptionalString(LookUp(item, "Name", "name").value).Failure?
              || OptionalString(LookUp(item, "Unit", "unit").value).Failure?
    ensures r.Success? ==> (r.value.Some? <==> HasName(item))
    ensures r.Success? && r.value.Some? ==> r.value.value.name != ""
  {
    match LookUp(item, "Name", "name")
    case Failure(e) => Failure(e)
    case Success(nameProp) =>
      match OptionalString(nameProp)
      case Failure(e) => Failure(e)
      case Success(name) =>
        var value := OptionalText(LookUp(item, "Value", "value").value, rawText);
        match OptionalString(LookUp(item, "Unit", "unit").value)
        case Failure(e) => Failure(e)
        case Success(unit) =>
          if name.None? || name.value == "" then Success(None)
          else Success(Some(MeasurementItem(name.value, value.GetOr(""), unit.GetOr(""))))
  }

  /** The `(name, value)` pair an event summary keeps for an item: the same
      name rule as `ParseMeasurement`, the value as text, and the unit not
      read at all. */
  function SummaryPair(item: Json, rawText: Json -> string): (r: Result<Option<(string, string)>, string>)
    ensures r.Failure? <==> !item.JObject? || OptionalString(LookUp(item, "Name", "name").value).Failure?
    ensures r.Success? ==> (r.value.Some? <==> HasName(item))
  {
    match LookUp(item, "Name", "name")
    case Failure(e) => Failure(e)
    case Success(nameProp) =>
      match OptionalString(nameProp)
      case Failure(e) => Failure(e)
      case Success(name) =>
        var value := OptionalText(LookUp(item, "Value", "value").value, rawText);
        if name.None? || name.value == "" then Success(None)
        else Success(Some((name.value, value.GetOr(""))))
  }

  /** `EnumerateArray().Select(decode).Where(m => m != null).ToList()`:
      every item is decoded, in order; the first exception ends the query. */
  function Collect<T(!new)>(items: seq<Json>, decode: Json -> Result<Option<T>, string>): (r: Result<seq<T>, string>)
    ensures r.Failure? <==> exists i :: 0 <= i < |items| && decode(items[i]).Failure?
    ensures r.Success? ==> |r.value| <= |items|
    ensures r.Success? ==> forall x :: x in r.value <==> exists i :: 0 <= i < |items| && decode(items[i]) == Success(Some(x))
    decreases |items|
  {
    if |items| == 0 then Success([])
    else
      assert forall i :: 1 <= i < |items| ==> items[1..][i - 1] == items[i];
      match decode(items[0])
      case Failure(e) => Failure(e)
      case Success(head) =>
        match Collect(items[1..], decode)
        case Failure(e) => Failure(e)
        case Success(rest) =>
          Success((if head.Some? then [head.value] else []) + rest)
  }

  function ParseMeasurements(items: seq<Json>, rawText: Json -> string): Result<seq<MeasurementItem>, string> {
    Collect(items, item => ParseMeasurement(item, rawText))
  }

  function SummaryPairs(items: seq<Json>, rawText: Json -> string): Result<seq<(string, string)>, string> {
    Collect(items, item => SummaryPair(item, rawText))
  }

  // ---------------------------------------------------------------------
  // Reading back what the writer stored.

  /** What the read side should make of measurements the writer serialised:
      the named ones, in order, with a missing unit shown as `""`. */
  function ReadBack(ms: seq<Measurement>): seq<MeasurementItem>
    decreases |ms|
  {
    if |ms| == 0 then []
    else
      (if ms[0].name != "" then [MeasurementItem(ms[0].name, ms[0].value, ms[0].unit.GetOr(""))] else [])
      + ReadBack(ms[1..])
  }

  lemma ReadBackOne(m: Measurement, rawText: Json -> string)
    ensures ParseMeasurement(Ingest.MeasurementJson(m), rawText)
         == Success(if m.name != "" then Some(MeasurementItem(m.name, m.value, m.unit.GetOr(""))) else None)
    ensures SummaryPair(Ingest.MeasurementJson(m), rawText)
         == Success(if m.name != "" then Some((m.name, m.value)) else None)
  {
    var members := Ingest.MeasurementJson(m).members;
    assert "Unit"[0] != "Name"[0];
    PropertyOfLastKey(members, 0);
    PropertyOfLastKey(members, 1);
    PropertyOfLastKey(members, 2);
  }

  lemma MeasurementsJsonTail(ms: seq<Measurement>)
    requires |ms| > 0
    ensures Ingest.MeasurementsJson(ms).items[1..] == Ingest.MeasurementsJson(ms[1..]).items
    ensures Ingest.MeasurementsJson(ms).items[0] == Ingest.MeasurementJson(ms[0])
  {
  }

  /** The round trip through the `measurements` column: what the writer
      stores, `ParseMeasurement` reads back with the same names and values,
      a `null` unit as `""`, and the unnamed measurements dropped. */
  lemma {:induction false} MeasurementsRoundTrip(ms: seq<Measurement>, rawText: Json -> string)
    ensures ParseMeasurements(Ingest.MeasurementsJson(ms).items, rawText) == Success(ReadBack(ms))
    decreases |ms|
  {
    if |ms| > 0 {
      MeasurementsJsonTail(ms);
      ReadBackOne(ms[0], rawText);
      MeasurementsRoundTrip(ms[1..], rawText);
    }
  }

  /** The `(name, value)` pairs of decoded items. */
  function NamesAndValues(ms: seq<MeasurementItem>): (ps: seq<(string, string)>)
    ensures |ps| == |ms|
    ensures forall i :: 0 <= i < |ms| ==> ps[i] == (ms[i].name, ms[i].value)
    decreases |ms|
  {
    if |ms| == 0 then [] else [(ms[0].name, ms[0].value)] + NamesAndValues(ms[1..])
  }

  /** Whenever `ParseMeasurement` accepts every item, an event summary
      shows the same names and values in the same order. (The converse
      fails: a unit that is neither a string nor `null` breaks only
      `ParseMeasurement`.) */
  lemma {:induction false} PairsAgreeWithItems(items: seq<Json>, rawText: Json -> string)
    requires ParseMeasurements(items, rawText).Success?
    ensures SummaryPairs(items, rawText) == Success(NamesAndValues(ParseMeasurements(items, rawText).value))
    decreases |items|
  {
    if |items| > 0 {
      var tail := items[1..];
      PairsAgreeWithItems(tail, rawText);
      var rest := ParseMeasurements(tail, rawText).value;
      assert SummaryPairs(tail, rawText).value == NamesAndValues(rest);
      var head := ParseMeasurement(items[0], rawText).value;
      if head.Some? {
        var ms := [head.value] + rest;
        assert ParseMeasurements(items, rawText).value == ms;
        assert ms[1..] == rest;
        assert SummaryPair(items[0], rawText).value == Some((head.value.name, head.value.value));
      } else {
        assert SummaryPair(items[0], rawText) == Success(None);
        assert ParseMeasurements(items, rawText).value == [] + rest;
        assert SummaryPairs(items, rawText).value == [] + NamesAndValues(rest);
        AppendEmptyLeft(rest);
        AppendEmptyLeft(NamesAndValues(rest));
      }
    }
  }

  // ---------------------------------------------------------------------
  // The event rows of a sensor.

  /** `sensor.Events` / `Where(e => e.SensorId == sensorId)`, in table order. */
  function EventsOf(events: seq<EventRow>, sensorId: string): (r: seq<EventRow>)
    ensures |r| <= |events|
    ensures forall e :: e in r <==> e in events && e.sensorId == sensorId
    decreases |events|
  {
    if |events| == 0 then []
    else
      assert events == [events[0]] + events[1..];
      (if events[0].sensorId == sensorId then [events[0]] else []) + EventsOf(events[1..], sensorId)
  }

  function Times(events: seq<EventRow>): (ts: seq<Instant>)
    ensures |ts| == |events| && forall i :: 0 <= i < |events| ==> ts[i] == events[i].observedAt
  {
    seq(|events|, i requires 0 <= i < |events| => events[i].observedAt)
  }

  /** `OrderByDescending(e => e.ObservedAt)`. */
  predicate NewerOrSame(a: EventRow, b: EventRow) {
    a.observedAt >= b.observedAt
  }

  lemma NewestFirstIsAnOrder()
    ensures Total(NewerOrSame) && Transitive(NewerOrSame)
  {
  }

  /** A sensor's events newest first (events with the same time in some
      order, as the database may return them). */
  function NewestFirst(db: Db, sensorId: string): seq<EventRow> {
    SortBy(NewerOrSame, EventsOf(db.events, sensorId))
  }

  /** The detail page's `Take(50)`. */
  const RecentLimit: nat := 50

  function RecentEvents(db: Db, sensorId: string): seq<EventRow> {
    Take(NewestFirst(db, sensorId), RecentLimit)
  }

  /** The recent events are at most fifty of the sensor's own events. */
  lemma RecentEventsAreOwn(db: Db, sensorId: string)
    ensures var all := EventsOf(db.events, sensorId);
            var recent := RecentEvents(db, sensorId);
            && |recent| == (if |all| < RecentLimit then |all| else RecentLimit)
            && forall e :: e in recent ==> e in db.events && e.sensorId == sensorId
  {
    var sorted := NewestFirst(db, sensorId);
    var recent := RecentEvents(db, sensorId);
    forall e | e in recent ensures e in db.events && e.sensorId == sensorId {
      assert e in sorted;
      assert e in multiset(sorted);
    }
  }

  /** The recent events come newest first, and none of the sensor's events
      left out (the rest of the newest-first order) is newer than one
      kept. */
  lemma RecentEventsAreNewest(db: Db, sensorId: string)
    ensures var recent := RecentEvents(db, sensorId);
            var dropped := NewestFirst(db, sensorId)[|recent|..];
            && SortedBy(NewerOrSame, recent)
            && multiset(recent) + multiset(dropped) == multiset(EventsOf(db.events, sensorId))
            && forall i, j :: 0 <= i < |recent| && 0 <= j < |dropped| ==>
                 recent[i].observedAt >= dropped[j].observedAt
  {
    var sorted := NewestFirst(db, sensorId);
    NewestFirstIsAnOrder();
    SortBySorted(NewerOrSame, EventsOf(db.events, sensorId));
    TakeKeepsTheFirst(NewerOrSame, sorted, RecentLimit);
    var recent := RecentEvents(db, sensorId);
    var dropped := sorted[|recent|..];
    forall i, j | 0 <= i < |recent| && 0 <= j < |dropped|
      ensures recent[i].observedAt >= dropped[j].observedAt
    {
      assert dropped[j] == sorted[|recent| + j];
    }
  }

  /** The head of a newest-first order is one of the events and at least
      as new as each of them. */
  lemma HeadIsNewest(sorted: seq<EventRow>, all: seq<EventRow>)
    requires SortedBy(NewerOrSame, sorted) && multiset(sorted) == multiset(all) && |sorted| > 0
    ensures sorted[0] in all
    ensures forall e :: e in all ==> e.observedAt <= sorted[0].observedAt
  {
    assert sorted[0] in multiset(all);
    forall e | e in all ensures e.observedAt <= sorted[0].observedAt {
      assert e in multiset(sorted);
      var j :| 0 <= j < |sorted| && sorted[j] == e;
      assert j == 0 || NewerOrSame(sorted[0], sorted[j]);
    }
  }

  /** The `Later` fold over the times of some events ends at the time of
      the head of their newest-first order. */
  lemma LatestIsHead(sorted: seq<EventRow>, all: seq<EventRow>)
    requires SortedBy(NewerOrSame, sorted) && multiset(sorted) == multiset(all) && |sorted| > 0
    ensures LatestOf(None, Times(all)) == Some(sorted[0].observedAt)
  {
    HeadIsNewest(sorted, all);
    var ts := Times(all);
    LatestOfIsMaximum(None, ts);
    var r := LatestOf(None, ts);
    var i :| 0 <= i < |ts| && ts[i] == r.value;
    assert all[i] in all;
    var k :| 0 <= k < |all| && all[k] == sorted[0];
    assert ts[k] == sorted[0].observedAt;
  }

  /** The first of the newest-first events, when there is one, is the
      latest of them: its time is the maximum the `Later` fold computes. */
  lemma NewestIsLatest(db: Db, sensorId: string)
    ensures var all := EventsOf(db.events, sensorId);
            var sorted := NewestFirst(db, sensorId);
            && (|sorted| == 0 <==> |all| == 0)
            && (|sorted| > 0 ==> LatestOf(None, Times(all)) == Some(sorted[0].observedAt))
  {
    var all := EventsOf(db.events, sensorId);
    var sorted := NewestFirst(db, sensorId);
    if |sorted| > 0 {
      NewestFirstIsAnOrder();
      SortBySorted(NewerOrSame, all);
      LatestIsHead(sorted, all);
    }
  }

  // ---------------------------------------------------------------------
  // The sensor list (`GetAllSensorsAsync`).

  /** `s.DisplayName ?? s.SensorId`. */
  function DisplayName(sensorId: string, row: SensorRow): (name: string)
    ensures row.displayName.Some? ==> name == row.displayName.value
    ensures row.displayName.None? ==> name == sensorId
  {
    row.displayName.GetOr(sensorId)
  }

  datatype SensorSummary = SensorSummary(
    sensorId: string,
    displayName: string,
    sourceType: string,
    eventCount: nat,
    lastEventTime: Option<Instant>,
    lat: Option<Coordinate>,
    lon: Option<Coordinate>)

  /** One projected row. The `sensors` map is keyed by `sensor_id`. */
  function Summary(db: Db, sensorId: string): (s: SensorSummary)
    requires sensorId in db.sensors
    ensures s.sensorId == sensorId && s.sourceType == db.sensors[sensorId].sourceType
    ensures s.displayName == DisplayName(sensorId, db.sensors[sensorId])
    ensures s.lat == db.sensors[sensorId].lat && s.lon == db.sensors[sensorId].lon
    ensures s.eventCount == |EventsOf(db.events, sensorId)|
    ensures IsMaximum(s.lastEventTime, None, Times(EventsOf(db.events, sensorId)))
  {
    var row := db.sensors[sensorId];
    var events := EventsOf(db.events, sensorId);
    LatestOfIsMaximum(None, Times(events));
    SensorSummary(sensorId, DisplayName(sensorId, row), row.sourceType, |events|,
                  LatestOf(None, Times(events)), row.lat, row.lon)
  }

  /** `OrderBy(s => s.DisplayName)`, ordinal. */
  predicate SummaryLe(a: SensorSummary, b: SensorSummary) {
    OrdinalLe(a.displayName, b.displayName)
  }

  lemma SummaryLeIsAnOrder()
    ensures Total(SummaryLe) && Transitive(SummaryLe)
  {
    forall a: SensorSummary, b: SensorSummary ensures SummaryLe(a, b) || SummaryLe(b, a) {
      OrdinalLeIsTotal(a.displayName, b.displayName);
    }
    forall a: SensorSummary, b: SensorSummary, c: SensorSummary | SummaryLe(a, b) && SummaryLe(b, c)
      ensures SummaryLe(a, c)
    {
      OrdinalLeIsTransitive(a.displayName, b.displayName, c.displayName);
    }
  }

  /** The rows the list query projects: one per sensor. */
  function SummaryRows(db: Db): set<SensorSummary> {
    set id | id in db.sensors :: Summary(db, id)
  }

  /** Ordering the projected rows lists each sensor exactly once. */
  lemma SummaryRowsListed(db: Db, sorted: seq<SensorSummary>)
    requires multiset(sorted) == multiset(SummaryRows(db))
    ensures forall i :: 0 <= i < |sorted| ==> sorted[i].sensorId in db.sensors && sorted[i] == Summary(db, sorted[i].sensorId)
    ensures forall id :: id in db.sensors ==> exists i :: 0 <= i < |sorted| && sorted[i].sensorId == id
    ensures forall i, j :: 0 <= i < j < |sorted| ==> sorted[i].sensorId != sorted[j].sensorId
  {
    NoRepeats(sorted, SummaryRows(db));
    forall i | 0 <= i < |sorted| ensures sorted[i] in SummaryRows(db) {
      assert sorted[i] in multiset(SummaryRows(db));
    }
    forall id | id in db.sensors ensures exists i :: 0 <= i < |sorted| && sorted[i].sensorId == id {
      assert Summary(db, id) in multiset(sorted);
    }
  }

  /** `GetAllSensorsAsync`: one summary per sensor, ordered by display name. */
  method GetAllSensors(db: Db) returns (r: seq<SensorSummary>)
    ensures forall i :: 0 <= i < |r| ==> r[i].sensorId in db.sensors && r[i] == Summary(db, r[i].sensorId)
    ensures forall id :: id in db.sensors ==> exists i :: 0 <= i < |r| && r[i].sensorId == id
    ensures forall i, j :: 0 <= i < j < |r| ==> r[i].sensorId != r[j].sensorId
    ensures SortedBy(SummaryLe, r)
  {
    SummaryLeIsAnOrder();
    r := SortSet(SummaryRows(db), SummaryLe);
    SummaryRowsListed(db, r);
  }

  // ---------------------------------------------------------------------
  // The detail page (`GetSensorDetailAsync`).

  datatype EventSummary = EventSummary(
    eventId: string,
    observedAt: Instant,
    statusLevel: string,
    statusMessage: Option<string>,
    measurements: seq<(string, string)>)

  datatype SensorDetail = SensorDetail(
    sensorId: string,
    displayName: string,
    sourceType: string,
    lat: Option<Coordinate>,
    lon: Option<Coordinate>,
    createdAt: Instant,
    updatedAt: Instant,
    totalEventCount: nat,
    recentEvents: seq<EventSummary>,
    latestMeasurements: seq<MeasurementItem>,
    latestMeasurementTime: Option<Instant>)

  /** `e.Measurements?.RootElement.ValueKind == JsonValueKind.Array`. */
  predicate HoldsArray(row: EventRow) {
    row.measurements.Some? && row.measurements.value.JArray?
  }

  /** The measurements shown for the newest event, with its time, when its
      column holds an array; nothing otherwise. */
  function LatestMeasurements(newest: Option<EventRow>, rawText: Json -> string)
    : (r: Result<(seq<MeasurementItem>, Option<Instant>), string>)
    ensures r.Success? ==> (r.value.1.Some? <==> newest.Some? && HoldsArray(newest.value))
    ensures r.Success? && r.value.1.Some? ==> r.value.1.value == newest.value.observedAt
    ensures r.Success? && r.value.1.None? ==> r.value.0 == []
    ensures newest.Some? && HoldsArray(newest.value) ==>
              match ParseMeasurements(newest.value.measurements.value.items, rawText)
              case Failure(e) => r == Failure(e)
              case Success(items) => r == Success((items, Some(newest.value.observedAt)))
    ensures r.Failure? ==> newest.Some? && HoldsArray(newest.value)
  {
    if newest.Some? && HoldsArray(newest.value) then
      match ParseMeasurements(newest.value.measurements.value.items, rawText)
      case Failure(e) => Failure(e)
      case Success(items) => Success((items, Some(newest.value.observedAt)))
    else Success(([], None))
  }

  function SummarizeEvent(row: EventRow, rawText: Json -> string): (r: Result<EventSummary, string>)
    ensures r.Success? ==>
              && r.value.eventId == row.eventId && r.value.observedAt == row.observedAt
              && r.value.statusLevel == row.statusLevel && r.value.statusMessage == row.statusMessage
              && (!HoldsArray(row) ==> r.value.measurements == [])
    ensures HoldsArray(row) ==>
              match SummaryPairs(row.measurements.value.items, rawText)
              case Failure(e) => r == Failure(e)
              case Success(pairs) => r.Success? && r.value.measurements == pairs
    ensures r.Failure? ==> HoldsArray(row)
  {
    if HoldsArray(row) then
      match SummaryPairs(row.measurements.value.items, rawText)
      case Failure(e) => Failure(e)
      case Success(pairs) => Success(EventSummary(row.eventId, row.observedAt, row.statusLevel, row.statusMessage, pairs))
    else Success(EventSummary(row.eventId, row.observedAt, row.statusLevel, row.statusMessage, []))
  }

  /** `Select(f).ToList()` where `f` may throw: every row in order, and the
      first exception ends the query. */
  function MapAll<A, B>(rows: seq<A>, f: A -> Result<B, string>): (r: Result<seq<B>, string>)
    ensures r.Success? ==> |r.value| == |rows|
    ensures r.Success? ==> forall i :: 0 <= i < |rows| ==> f(rows[i]) == Success(r.value[i])
    ensures r.Failure? ==> exists i :: 0 <= i < |rows| && f(rows[i]).Failure?
    decreases |rows|
  {
    if |rows| == 0 then Success([])
    else
      match f(rows[0])
      case Failure(e) => Failure(e)
      case Success(head) =>
        match MapAll(rows[1..], f)
        case Failure(e) =>
          assert rows[1..][0] == rows[1];
          Failure(e)
        case Success(rest) =>
          assert forall i :: 1 <= i < |rows| ==> rows[1..][i - 1] == rows[i];
          Success([head] + rest)
  }

  function SummarizeEvents(rows: seq<EventRow>, rawText: Json -> string): Result<seq<EventSummary>, string> {
    MapAll(rows, row => SummarizeEvent(row, rawText))
  }

  function First<T>(s: seq<T>): (r: Option<T>)
    ensures r.Some? <==> |s| > 0
    ensures r.Some? ==> r.value == s[0]
  {
    if |s| == 0 then None else Some(s[0])
  }

  /** `GetSensorDetailAsync`: `None` for an unknown sensor; otherwise the
      sensor's row, its event count, its fifty newest events summarised,
      and the decoded measurements of the newest one. */
  function GetSensorDetail(db: Db, sensorId: string, rawText: Json -> string): (r: Result<Option<SensorDetail>, string>)
    ensures r.Success? && r.value.None? <==> sensorId !in db.sensors
    ensures r.Failure? <==>
              && sensorId in db.sensors
              && (|| LatestMeasurements(First(RecentEvents(db, sensorId)), rawText).Failure?
                  || exists i :: 0 <= i < |RecentEvents(db, sensorId)| &&
                                 SummarizeEvent(RecentEvents(db, sensorId)[i], rawText).Failure?)
    ensures r.Success? && r.value.Some? ==>
              var d := r.value.value;
              var row := db.sensors[sensorId];
              && d.sensorId == sensorId && d.displayName == DisplayName(sensorId, row)
              && d.sourceType == row.sourceType && d.lat == row.lat && d.lon == row.lon
              && d.createdAt == row.createdAt && d.updatedAt == row.updatedAt
              && d.totalEventCount == |EventsOf(db.events, sensorId)|
              && |d.recentEvents| == |RecentEvents(db, sensorId)|
              && (forall i :: 0 <= i < |d.recentEvents| ==>
                    SummarizeEvent(RecentEvents(db, sensorId)[i], rawText) == Success(d.recentEvents[i]))
              && LatestMeasurements(First(RecentEvents(db, sensorId)), rawText)
                 == Success((d.latestMeasurements, d.latestMeasurementTime))
              && (d.latestMeasurementTime.Some? <==>
                    |NewestFirst(db, sensorId)| > 0 && HoldsArray(NewestFirst(db, sensorId)[0]))
              && (d.latestMeasurementTime.Some? ==>
                    d.latestMeasurementTime == LatestOf(None, Times(EventsOf(db.events, sensorId))))
  {
    if sensorId !in db.sensors then Success(None)
    else
      var row := db.sensors[sensorId];
      var recent := RecentEvents(db, sensorId);
      var total := |EventsOf(db.events, sensorId)|;
      NewestIsLatest(db, sensorId);
      assert |recent| > 0 ==> recent[0] == NewestFirst(db, sensorId)[0];
      match LatestMeasurements(First(recent), rawText)
      case Failure(e) => Failure(e)
      case Success(latest) =>
        match SummarizeEvents(recent, rawText)
        case Failure(e) => Failure(e)
        case Success(summaries) =>
          Success(Some(SensorDetail(sensorId, DisplayName(sensorId, row), row.sourceType, row.lat, row.lon,
                                    row.createdAt, row.updatedAt, total, summaries, latest.0, latest.1)))
  }

  // ---------------------------------------------------------------------
  // The map (`GetMapPointsAsync`).

  datatype MapPoint = MapPoint(
    sensorId: string,
    displayName: string,
    lat: Coordinate,
    lon: Coordinate,
    eventCount: nat,
    lastEventTime: Option<Instant>,
    lastMeasurements: seq<MeasurementItem>)

  /** `s.Lat != null && s.Lon != null`. */
  predicate Located(row: SensorRow) {
    row.lat.Some? && row.lon.Some?
  }

  /** The projected row, before the per-sensor loop fills it in. */
  function BasePoint(db: Db, sensorId: string): (p: MapPoint)
    requires sensorId in db.sensors && Located(db.sensors[sensorId])
    ensures p.sensorId == sensorId && p.lastMeasurements == []
  {
    var row := db.sensors[sensorId];
    var events := EventsOf(db.events, sensorId);
    MapPoint(sensorId, DisplayName(sensorId, row), row.lat.value, row.lon.value, |events|,
             LatestOf(None, Times(events)), [])
  }

  /** The loop body: the newest event's decoded measurements, when its
      column holds an array, and its time, when there is an event. */
  function FillIn(db: Db, p: MapPoint, rawText: Json -> string): (r: Result<MapPoint, string>)
    ensures r.Success? ==> && r.value.sensorId == p.sensorId && r.value.displayName == p.displayName
                           && r.value.lat == p.lat && r.value.lon == p.lon && r.value.eventCount == p.eventCount
    ensures var newest := First(NewestFirst(db, p.sensorId));
            match LatestMeasurements(newest, rawText)
            case Failure(e) => r == Failure(e)
            case Success(latest) =>
              && r.Success?
              && r.value.lastMeasurements == (if latest.1.Some? then latest.0 else p.lastMeasurements)
              && r.value.lastEventTime == (if newest.Some? then Some(newest.value.observedAt) else p.lastEventTime)
  {
    var newest := First(NewestFirst(db, p.sensorId));
    match LatestMeasurements(newest, rawText)
    case Failure(e) => Failure(e)
    case Success(latest) =>
      var p' := if latest.1.Some? then p.(lastMeasurements := latest.0) else p;
      Success(if newest.Some? then p'.(lastEventTime := Some(newest.value.observedAt)) else p')
  }

  /** The loop never changes the time the query projected: the newest
      event's time is the latest time. */
  lemma FillInKeepsTime(db: Db, sensorId: string, rawText: Json -> string)
    requires sensorId in db.sensors && Located(db.sensors[sensorId])
    ensures var r := FillIn(db, BasePoint(db, sensorId), rawText);
            r.Success? ==> r.value.lastEventTime == LatestOf(None, Times(EventsOf(db.events, sensorId)))
  {
    NewestIsLatest(db, sensorId);
  }

  function FillInAll(db: Db, ps: seq<MapPoint>, rawText: Json -> string): Result<seq<MapPoint>, string> {
    MapAll(ps, p => FillIn(db, p, rawText))
  }

  /** `OrderBy(s => s.DisplayName)`, ordinal. */
  predicate PointLe(a: MapPoint, b: MapPoint) {
    OrdinalLe(a.displayName, b.displayName)
  }

  lemma PointLeIsAnOrder()
    ensures Total(PointLe) && Transitive(PointLe)
  {
    forall a: MapPoint, b: MapPoint ensures PointLe(a, b) || PointLe(b, a) {
      OrdinalLeIsTotal(a.displayName, b.displayName);
    }
    forall a: MapPoint, b: MapPoint, c: MapPoint | PointLe(a, b) && PointLe(b, c)
      ensures PointLe(a, c)
    {
      OrdinalLeIsTransitive(a.displayName, b.displayName, c.displayName);
    }
  }

  /** The rows the map query projects: one per located sensor. */
  function PointRows(db: Db): set<MapPoint> {
    set id | id in db.sensors && Located(db.sensors[id]) :: BasePoint(db, id)
  }

  /** Ordering the projected rows lists each located sensor exactly once. */
  lemma PointRowsListed(db: Db, sorted: seq<MapPoint>)
    requires multiset(sorted) == multiset(PointRows(db))
    ensures forall i :: 0 <= i < |sorted| ==>
              var id := sorted[i].sensorId;
              id in db.sensors && Located(db.sensors[id]) && sorted[i] == BasePoint(db, id)
    ensures forall id :: id in db.sensors && Located(db.sensors[id]) ==>
              exists i :: 0 <= i < |sorted| && sorted[i].sensorId == id
    ensures forall i, j :: 0 <= i < j < |sorted| ==> sorted[i].sensorId != sorted[j].sensorId
  {
    NoRepeats(sorted, PointRows(db));
    forall i | 0 <= i < |sorted| ensures sorted[i] in PointRows(db) {
      assert sorted[i] in multiset(PointRows(db));
    }
    forall id | id in db.sensors && Located(db.sensors[id])
      ensures exists i :: 0 <= i < |sorted| && sorted[i].sensorId == id
    {
      assert BasePoint(db, id) in multiset(sorted);
    }
  }

  /** `GetMapPointsAsync`: exactly the sensors with both coordinates, one
      point each, ordered by display name, each filled in from its newest
      event. */
  method GetMapPoints(db: Db, rawText: Json -> string) returns (r: Result<seq<MapPoint>, string>)
    ensures r.Success? ==> forall i :: 0 <= i < |r.value| ==>
              && r.value[i].sensorId in db.sensors && Located(db.sensors[r.value[i].sensorId])
              && FillIn(db, BasePoint(db, r.value[i].sensorId), rawText) == Success(r.value[i])
    ensures r.Success? ==> forall id :: id in db.sensors && Located(db.sensors[id]) ==>
              exists i :: 0 <= i < |r.value| && r.value[i].sensorId == id
    ensures r.Success? ==> forall i, j :: 0 <= i < j < |r.value| ==> r.value[i].sensorId != r.value[j].sensorId
    ensures r.Success? ==> SortedBy(PointLe, r.value)
    ensures r.Failure? <==> exists id :: id in db.sensors && Located(db.sensors[id]) &&
                                         FillIn(db, BasePoint(db, id), rawText).Failure?
  {
    PointLeIsAnOrder();
    var sorted := SortSet(PointRows(db), PointLe);
    PointRowsListed(db, sorted);
    r := FillInAll(db, sorted, rawText);
    if r.Success? {
      assert forall i :: 0 <= i < |sorted| ==>
        r.value[i].sensorId == sorted[i].sensorId && r.value[i].displayName == sorted[i].displayName;
      forall id | id in db.sensors && Located(db.sensors[id])
        ensures FillIn(db, BasePoint(db, id), rawText).Success?
      {
        var i :| 0 <= i < |sorted| && sorted[i].sensorId == id;
        assert FillIn(db, sorted[i], rawText) == Success(r.value[i]);
      }
    } else {
      var i :| 0 <= i < |sorted| && FillIn(db, sorted[i], rawText).Failure?;
      assert sorted[i] == BasePoint(db, sorted[i].sensorId);
    }
  }

  /** A sensor the ingest writer created has no coordinates, so it is not
      on the map until something else sets them. */
  lemma WrittenSensorIsNotLocated(db: Db, e: SensorEvent, now: Instant)
    ensures var written := Ingest.WriteEvent(db, e, now, Ingest.NoFault).0;
            e.sensorId in written.sensors && !Located(written.sensors[e.sensorId])
  {
  }
}

=== FILE: sensor_community.dfy ===
/** The Sensor.Community parser (`SensorCommunityParser`): a JSON array of
    readings, each naming a sensor type and carrying typed values, becomes
    one measurement per usable value, named `<sensor type>.<value type>`. */
module SensorCommunity {
  import opened Wrappers
  import opened Text
  import opened Contracts
  import opened Json
  import opened Parsing

  // The deserialised response shape. `value` holds the text that
  // `object.ToString()` gives for the deserialised JSON value.

  datatype Location = Location(
    id: int,
    latitude: Option<string>,
    longitude: Option<string>,
    country: Option<string>,
    altitude: Option<string>,
    exactLocation: Option<int>,
    indoor: Option<int>)

  datatype SensorTypeInfo = SensorTypeInfo(id: Option<int>, name: Option<string>, manufacturer: Option<string>)

  datatype SensorInfo = SensorInfo(pin: Option<string>, id: Option<int>, sensorType: Option<SensorTypeInfo>)

  datatype DataValue = DataValue(valueType: Option<string>, value: Option<string>, id: Option<int>)

  datatype Reading = Reading(
    id: int,
    location: Option<Location>,
    sensor: Option<SensorInfo>,
    values: Option<seq<DataValue>>,
    timestamp: Option<string>)

  /** `reading.Sensor?.SensorType?.Name` */
  function SensorTypeName(r: Reading): Option<string> {
    if r.sensor.Some? && r.sensor.value.sensorType.Some? then r.sensor.value.sensorType.value.name else None
  }

  /** The reading's timestamp when it is not blank and `parseUtc` accepts it. */
  function ReadingTime(r: Reading, parseUtc: string -> Option<Instant>): Option<Instant> {
    if !IsNullOrWhiteSpace(r.timestamp) then parseUtc(r.timestamp.value) else None
  }

  /** A reading whose `sensordatavalues` list is present and non-empty. */
  predicate HasValues(r: Reading) {
    r.values.Some? && |r.values.value| > 0
  }

  /** `NormalizeMeasurementName`: "unknown" for a missing or blank name,
      otherwise trimmed, lower-cased and with each space turned into `_`.
      The result is never blank and holds no space; other white space inside
      the name (a tab, say) is kept. */
  function NormalizeMeasurementName(name: Option<string>): string {
    if IsNullOrWhiteSpace(name) then "unknown"
    else ReplaceChar(ToLowerInvariant(Trim(name.value)), ' ', '_')
  }

  /** A name as `NormalizeMeasurementName` leaves it. */
  predicate IsNormalized(r: string) {
    && |r| > 0
    && !IsWhiteSpace(r[0]) && !IsWhiteSpace(r[|r| - 1])
    && Lacks(r, ' ')
    && forall i :: 0 <= i < |r| ==> !('A' <= r[i] <= 'Z')
  }

  /** The normalised name is never blank and holds no space or upper-case
      ASCII letter; a missing or blank name becomes "unknown", any other
      name gets no longer. */
  lemma {:induction false} NormalizeShape(name: Option<string>)
    ensures IsNormalized(NormalizeMeasurementName(name))
    ensures !IsBlank(NormalizeMeasurementName(name))
    ensures IsNullOrWhiteSpace(name) ==> NormalizeMeasurementName(name) == "unknown"
    ensures !IsNullOrWhiteSpace(name) ==> |NormalizeMeasurementName(name)| <= |name.value|
  {
    var r := NormalizeMeasurementName(name);
    if IsNullOrWhiteSpace(name) {
      UnknownIsNormalized();
    } else {
      TrimOfNonBlankIsNonEmpty(name.value);
      TrimFacts(name.value);
      var t := Trim(name.value);
      var l := ToLowerInvariant(t);
      forall i | 0 <= i < |t|
        ensures !('A' <= r[i] <= 'Z') && r[i] != ' '
        ensures !IsWhiteSpace(t[i]) ==> !IsWhiteSpace(r[i])
      {
        LowerCharFacts(t[i]);
      }
      assert !IsWhiteSpace(r[0]) && !IsWhiteSpace(r[|r| - 1]);
    }
  }

  lemma UnknownIsNormalized()
    ensures IsNormalized("unknown")
  {
    var u := "unknown";
    forall i | 0 <= i < |u|
      ensures !('A' <= u[i] <= 'Z') && u[i] != ' '
    {
    }
  }

  /** Normalising an already normalised name changes nothing. */
  lemma {:induction false} NormalizeIsIdempotent(name: Option<string>)
    ensures NormalizeMeasurementName(Some(NormalizeMeasurementName(name))) == NormalizeMeasurementName(name)
  {
    var r := NormalizeMeasurementName(name);
    NormalizeShape(name);
    assert !IsBlank(r);
    TrimOfTrimmed(r);
    assert ToLowerInvariant(r) == r;
    assert ReplaceChar(r, ' ', '_') == r;
  }

  // ---------------------------------------------------------------------
  // The parser as written: two nested loops threading the caller's state.

  /** The inner `foreach (var value in reading.Sensordatavalues)`. */
  function AddValues(sensorType: string, values: seq<DataValue>, acc: seq<Measurement>, found: bool)
    : (seq<Measurement>, bool)
    decreases |values|
  {
    if |values| == 0 then (acc, found)
    else
      var v := values[0];
      if IsNullOrWhiteSpace(v.valueType) then AddValues(sensorType, values[1..], acc, found)
      else
        var valueName := NormalizeMeasurementName(v.valueType);
        var name := if IsBlank(sensorType) then valueName else sensorType + "." + valueName;
        AddValues(sensorType, values[1..], acc + [Measurement(name, v.value.GetOr(""), None)], true)
  }

  /** The list, the `ref observedAt` and the local `foundData` flag. */
  datatype Scan = Scan(measurements: seq<Measurement>, observedAt: Option<Instant>, found: bool)

  /** The outer `foreach (var reading in readings)`. The timestamp is looked
      at only after the reading's values, so a reading without values is
      skipped before its timestamp. */
  function AddReadings(readings: seq<Reading>, parseUtc: string -> Option<Instant>, s: Scan): Scan
    decreases |readings|
  {
    if |readings| == 0 then s
    else AddReadings(readings[1..], parseUtc, ReadingStep(readings[0], parseUtc, s))
  }

  /** The body of the outer loop for one reading. */
  function ReadingStep(r: Reading, parseUtc: string -> Option<Instant>, s: Scan): Scan {
    var sensorType := NormalizeMeasurementName(SensorTypeName(r));
    if !HasValues(r) then s
    else
      var (ms, found) := AddValues(sensorType, r.values.value, s.measurements, s.found);
      var observed :=
        if ReadingTime(r, parseUtc).Some? then Later(s.observedAt, ReadingTime(r, parseUtc).value)
        else s.observedAt;
      Scan(ms, observed, found)
  }

  const EmptyResponseMessage: string := "Empty Sensor.Community response"
  /** `SensorCommunityParser.Parse`. `parseUtc` is the invariant-culture,
      assume-UTC `DateTime.TryParse`; a `JsonException` is the `Failure`.
      The contract states the result in terms of the reference definitions
      `Produced` and `Times` below. */
  function Parse(decoded: Decoded<seq<Reading>>, parseUtc: string -> Option<Instant>, st: ParseState)
    : (r: Result<ParseState, string>)
    ensures decoded.Malformed? <==> r.Failure?
    ensures decoded.Malformed? ==> r.error == decoded.message
    ensures (decoded.NullLiteral? || decoded == Value([])) ==>
              r == Success(st.(level := WARN, message := EmptyResponseMessage))
    ensures decoded.Value? && |decoded.value| > 0 ==>
              && r.Success?
              && r.value.measurements == st.measurements + Produced(decoded.value)
              && r.value.observedAt == LatestOf(st.observedAt, Times(decoded.value, parseUtc))
              && (if Produced(decoded.value) == []
                  then r.value.level == WARN && r.value.message == NoMeasurementsMessage
                  else r.value.level == st.level && r.value.message == st.message)
  {
    match decoded
    case Malformed(msg) => Failure(msg)
    case NullLiteral => Success(st.(level := WARN, message := EmptyResponseMessage))
    case Value(readings) =>
      if |readings| == 0 then Success(st.(level := WARN, message := EmptyResponseMessage))
      else
        var s := AddReadings(readings, parseUtc, Scan(st.measurements, st.observedAt, false));
        AddReadingsMeetsReference(readings, parseUtc, Scan(st.measurements, st.observedAt, false));
        var st' := st.(measurements := s.measurements, observedAt := s.observedAt);
        if !s.found then Success(st'.(level := WARN, message := NoMeasurementsMessage))
        else Success(st')
  }

  // ---------------------------------------------------------------------
  // Reference definitions: which values are kept, what each becomes, which
  // timestamps count.

  /** The measurement a kept value becomes under a (normalised) sensor type. */
  function Qualified(sensorType: string, v: DataValue): Measurement {
    Measurement(sensorType + "." + NormalizeMeasurementName(v.valueType), v.value.GetOr(""), None)
  }

  /** One measurement per value whose `value_type` is not blank, in order. */
  function ValueMeasurements(sensorType: string, values: seq<DataValue>): seq<Measurement>
    decreases |values|
  {
    if |values| == 0 then []
    else if IsNullOrWhiteSpace(values[0].valueType) then ValueMeasurements(sensorType, values[1..])
    else [Qualified(sensorType, values[0])] + ValueMeasurements(sensorType, values[1..])
  }

  /** What one reading contributes: nothing without values, otherwise its
      kept values under its normalised sensor type. */
  function ReadingMeasurements(r: Reading): seq<Measurement> {
    if HasValues(r) then ValueMeasurements(NormalizeMeasurementName(SensorTypeName(r)), r.values.value) else []
  }

  /** Everything the readings contribute, reading by reading. */
  function Produced(readings: seq<Reading>): seq<Measurement>
    decreases |readings|
  {
    if |readings| == 0 then [] else ReadingMeasurements(readings[0]) + Produced(readings[1..])
  }

  /** The parseable, non-blank timestamps of the readings that have values. */
  function Times(readings: seq<Reading>, parseUtc: string -> Option<Instant>): seq<Instant>
    decreases |readings|
  {
    if |readings| == 0 then []
    else
      var r := readings[0];
      if HasValues(r) && ReadingTime(r, parseUtc).Some?
      then [ReadingTime(r, parseUtc).value] + Times(readings[1..], parseUtc)
      else Times(readings[1..], parseUtc)
  }

  /** The inner loop adds exactly the kept values. Because the sensor type
      is normalised it is never blank, so the bare `valueName` branch of the
      loop is never taken. */
  lemma {:induction false} AddValuesMeetsReference(
    sensorType: string, values: seq<DataValue>, acc: seq<Measurement>, found: bool)
    requires !IsBlank(sensorType)
    ensures AddValues(sensorType, values, acc, found).0 == acc + ValueMeasurements(sensorType, values)
    ensures AddValues(sensorType, values, acc, found).1 == (found || ValueMeasurements(sensorType, values) != [])
    decreases |values|
  {
    if |values| == 0 {
      assert acc + [] == acc;
    } else {
      var skip := IsNullOrWhiteSpace(values[0].valueType);
      var m := Qualified(sensorType, values[0]);
      var acc' := if skip then acc else acc + [m];
      var found' := if skip then found else true;
      AddValuesStep(sensorType, values, acc, found);
      AddValuesMeetsReference(sensorType, values[1..], acc', found');
    }
  }

  lemma {:induction false} AddValuesStep(sensorType: string, values: seq<DataValue>, acc: seq<Measurement>, found: bool)
    requires !IsBlank(sensorType) && |values| > 0
    ensures var skip := IsNullOrWhiteSpace(values[0].valueType);
            var m := Qualified(sensorType, values[0]);
            && AddValues(sensorType, values, acc, found)
               == AddValues(sensorType, values[1..], if skip then acc else acc + [m], skip ==> found)
            && ValueMeasurements(sensorType, values)
               == (if skip then [] else [m]) + ValueMeasurements(sensorType, values[1..])
            && (if skip then acc else acc + [m]) + ValueMeasurements(sensorType, values[1..])
               == acc + ValueMeasurements(sensorType, values)
  {
    var rest := ValueMeasurements(sensorType, values[1..]);
    if IsNullOrWhiteSpace(values[0].valueType) {
      AppendEmptyLeft(rest);
    } else {
      AppendIsAssociative(acc, [Qualified(sensorType, values[0])], rest);
    }
  }

  /** The outer loop adds `Produced`, folds `Times` into the observed time,
      and sets the flag exactly when something was added. */
  lemma {:induction false} AddReadingsMeetsReference(
    readings: seq<Reading>, parseUtc: string -> Option<Instant>, s: Scan)
    ensures AddReadings(readings, parseUtc, s)
         == Scan(s.measurements + Produced(readings),
                 LatestOf(s.observedAt, Times(readings, parseUtc)),
                 s.found || Produced(readings) != [])
    decreases |readings|
  {
    if |readings| == 0 {
      AppendEmpty(s.measurements);
    } else {
      var r := readings[0];
      var s' := ReadingStep(r, parseUtc, s);
      ReadingStepMeetsReference(r, parseUtc, s);
      AddReadingsMeetsReference(readings[1..], parseUtc, s');
      AppendIsAssociative(s.measurements, ReadingMeasurements(r), Produced(readings[1..]));
    }
  }

  /** One turn of the outer loop, in terms of the reference definitions. */
  lemma {:induction false} ReadingStepMeetsReference(r: Reading, parseUtc: string -> Option<Instant>, s: Scan)
    ensures ReadingStep(r, parseUtc, s)
         == Scan(s.measurements + ReadingMeasurements(r),
                 if HasValues(r) && ReadingTime(r, parseUtc).Some?
                 then Later(s.observedAt, ReadingTime(r, parseUtc).value) else s.observedAt,
                 s.found || ReadingMeasurements(r) != [])
  {
    if HasValues(r) {
      var sensorType := NormalizeMeasurementName(SensorTypeName(r));
      NormalizeShape(SensorTypeName(r));
      AddValuesMeetsReference(sensorType, r.values.value, s.measurements, s.found);
    } else {
      assert s.measurements + [] == s.measurements;
    }
  }

  /** Every produced measurement has no unit and a non-blank, space-free
      name with a `.` between the sensor type and the value type. */
  lemma {:induction false} ProducedShape(readings: seq<Reading>)
    ensures forall m :: m in Produced(readings) ==>
              m.unit.None? && !IsBlank(m.name) && Lacks(m.name, ' ') && '.' in m.name
    decreases |readings|
  {
    if |readings| > 0 {
      ProducedShape(readings[1..]);
      var r := readings[0];
      if HasValues(r) {
        NormalizeShape(SensorTypeName(r));
        ValueMeasurementsShape(NormalizeMeasurementName(SensorTypeName(r)), r.values.value);
      }
    }
  }

  lemma {:induction false} ValueMeasurementsShape(sensorType: string, values: seq<DataValue>)
    requires !IsBlank(sensorType) && Lacks(sensorType, ' ')
    ensures forall m :: m in ValueMeasurements(sensorType, values) ==>
              m.unit.None? && !IsBlank(m.name) && Lacks(m.name, ' ') && '.' in m.name
    decreases |values|
  {
    if |values| > 0 {
      ValueMeasurementsShape(sensorType, values[1..]);
      if !IsNullOrWhiteSpace(values[0].valueType) {
        var m := Qualified(sensorType, values[0]);
        var i :| 0 <= i < |sensorType| && !IsWhiteSpace(sensorType[i]);
        assert m.name[i] == sensorType[i];
        assert m.name[|sensorType|] == '.';
      }
    }
  }

  /** The worked example: one SDS011 reading with a P1 value of "12.5". */
  lemma ExampleNames()
    ensures NormalizeMeasurementName(Some("SDS011")) == "sds011"
    ensures NormalizeMeasurementName(Some("P1")) == "p1"
  {
    NormalizesTo("SDS011", "sds011");
    NormalizesTo("P1", "p1");
  }

  /** A name with no white space or space at all normalises to its lower-case form. */
  lemma NormalizesTo(name: string, lower: string)
    requires |name| > 0 && forall i :: 0 <= i < |name| ==> !IsWhiteSpace(name[i])
    requires lower == ToLowerInvariant(name)
    ensures NormalizeMeasurementName(Some(name)) == lower
  {
    assert !IsBlank(name) by { assert !IsWhiteSpace(name[0]); }
    TrimOfTrimmed(name);
    forall i | 0 <= i < |lower|
      ensures lower[i] != ' '
    {
      LowerCharFacts(name[i]);
    }
    assert ReplaceChar(lower, ' ', '_') == lower;
  }

  const ExampleStamp: string := "2024-01-01T00:00:00Z"
  const ExampleValue: DataValue := DataValue(Some("P1"), Some("12.5"), None)

  /** One SDS011 reading with a P1 value of "12.5". */
  const ExampleReading: Reading := Reading(
    0, None, Some(SensorInfo(None, None, Some(SensorTypeInfo(None, Some("SDS011"), None)))),
    Some([ExampleValue]), Some(ExampleStamp))

  lemma ExampleProduced()
    ensures Produced([ExampleReading]) == [Measurement("sds011.p1", "12.5", None)]
  {
    ExampleNames();
    assert Qualified("sds011", ExampleValue) == Measurement("sds011.p1", "12.5", None);
    assert ValueMeasurements("sds011", [ExampleValue]) == [Qualified("sds011", ExampleValue)] + [];
    assert Produced([ExampleReading]) == ReadingMeasurements(ExampleReading) + [];
  }

  lemma ExampleTimes(parseUtc: string -> Option<Instant>, t: Instant)
    requires parseUtc(ExampleStamp) == Some(t)
    ensures Times([ExampleReading], parseUtc) == [t]
  {
    assert !IsBlank(ExampleStamp) by { assert !IsWhiteSpace(ExampleStamp[0]); }
    assert Times([ExampleReading], parseUtc) == [t] + Times([], parseUtc);
  }

  /** The worked example: the reading yields exactly `sds011.p1` = `12.5`,
      observed at the reading's timestamp, and the status stays INFO "OK". */
  lemma SingleReadingExample(parseUtc: string -> Option<Instant>, t: Instant)
    requires parseUtc(ExampleStamp) == Some(t)
    ensures Parse(Value([ExampleReading]), parseUtc, Initial)
         == Success(ParseState([Measurement("sds011.p1", "12.5", None)], Some(t), INFO, "OK"))
  {
    ExampleProduced();
    ExampleTimes(parseUtc, t);
    assert LatestOf(None, [t]) == LatestOf(Some(t), []);
    AppendEmptyLeft(Produced([ExampleReading]));
  }
}

=== FILE: sorting.dfy ===
/** Ordering rows the way `ORDER BY` does, for an order given as a
    function: insertion into a sorted sequence, and sorting by repeated
    insertion. Rows that compare equal may come out in either order, as
    in SQL. */
module Sorting {
  /** Any two values are comparable. */
  ghost predicate Total<T(!new)>(le: (T, T) -> bool) {
    forall a, b :: le(a, b) || le(b, a)
  }

  ghost predicate Transitive<T(!new)>(le: (T, T) -> bool) {
    forall a, b, c :: le(a, b) && le(b, c) ==> le(a, c)
  }

  /** Every element is `le` every later one. */
  predicate SortedBy<T>(le: (T, T) -> bool, s: seq<T>) {
    forall i, j :: 0 <= i < j < |s| ==> le(s[i], s[j])
  }

  /** Put `x` before the first element it is `le`. */
  function InsertBy<T>(le: (T, T) -> bool, x: T, s: seq<T>): (r: seq<T>)
    ensures multiset(r) == multiset(s) + multiset{x}
    ensures |r| == |s| + 1
    decreases |s|
  {
    if |s| == 0 then [x]
    else if le(x, s[0]) then [x] + s
    else
      var rest := InsertBy(le, x, s[1..]);
      assert s == [s[0]] + s[1..];
      [s[0]] + rest
  }

  lemma {:induction false} InsertBySorted<T(!new)>(le: (T, T) -> bool, x: T, s: seq<T>)
    requires Total(le) && Transitive(le) && SortedBy(le, s)
    ensures SortedBy(le, InsertBy(le, x, s))
    decreases |s|
  {
    var r := InsertBy(le, x, s);
    if |s| > 0 && !le(x, s[0]) {
      var tail := s[1..];
      assert SortedBy(le, tail) by {
        forall i, j | 0 <= i < j < |tail| ensures le(tail[i], tail[j]) {
          assert tail[i] == s[i + 1] && tail[j] == s[j + 1];
        }
      }
      InsertBySorted(le, x, tail);
      var rest := InsertBy(le, x, tail);
      forall i, j | 0 <= i < j < |r|
        ensures le(r[i], r[j])
      {
        if i == 0 {
          assert r[j] == rest[j - 1];
          assert r[j] in multiset(rest);
          if r[j] != x {
            assert r[j] in multiset(tail);
            var k :| 0 <= k < |tail| && tail[k] == r[j];
            assert s[k + 1] == r[j];
          }
        } else {
          assert r[i] == rest[i - 1] && r[j] == rest[j - 1];
        }
      }
    } else if |s| > 0 {
      forall i, j | 0 <= i < j < |r|
        ensures le(r[i], r[j])
      {
        if i == 0 {
          assert r[j] == s[j - 1];
          if j > 1 {
            Chain(le, x, s[0], s[j - 1]);
          }
        } else {
          assert r[i] == s[i - 1] && r[j] == s[j - 1];
        }
      }
    }
  }

  lemma Chain<T(!new)>(le: (T, T) -> bool, a: T, b: T, c: T)
    requires Transitive(le) && le(a, b) && le(b, c)
    ensures le(a, c)
  {
  }

  /** Insertion sort. */
  function SortBy<T>(le: (T, T) -> bool, s: seq<T>): (r: seq<T>)
    ensures multiset(r) == multiset(s)
    ensures |r| == |s|
    decreases |s|
  {
    if |s| == 0 then []
    else
      assert s == [s[0]] + s[1..];
      InsertBy(le, s[0], SortBy(le, s[1..]))
  }

  lemma {:induction false} SortBySorted<T(!new)>(le: (T, T) -> bool, s: seq<T>)
    requires Total(le) && Transitive(le)
    ensures SortedBy(le, SortBy(le, s))
    decreases |s|
  {
    if |s| > 0 {
      SortBySorted(le, s[1..]);
      InsertBySorted(le, s[0], SortBy(le, s[1..]));
    }
  }

  /** The first `n` elements, or all of them when there are fewer. */
  function Take<T>(s: seq<T>, n: nat): (r: seq<T>)
    ensures |r| == (if |s| < n then |s| else n)
    ensures r == s[..|r|]
  {
    if |s| <= n then s else s[..n]
  }

  /** Cutting a sorted sequence leaves in front only elements that are `le`
      everything cut off. */
  lemma TakeKeepsTheFirst<T>(le: (T, T) -> bool, s: seq<T>, n: nat)
    requires SortedBy(le, s)
    ensures var front := Take(s, n);
            && multiset(front) + multiset(s[|front|..]) == multiset(s)
            && forall i, j :: 0 <= i < |front| && |front| <= j < |s| ==> le(front[i], s[j])
  {
    var front := Take(s, n);
    assert s == front + s[|front|..];
  }

  /** The rows of a set in `le` order, each exactly once: what `ORDER BY`
      does to a table. */
  method SortSet<T(!new)>(rows: set<T>, le: (T, T) -> bool) returns (r: seq<T>)
    requires Total(le) && Transitive(le)
    ensures multiset(r) == multiset(rows)
    ensures SortedBy(le, r)
  {
    r := [];
    var remaining := rows;
    while remaining != {}
      invariant remaining <= rows
      invariant multiset(r) == multiset(rows - remaining)
      invariant SortedBy(le, r)
      decreases |remaining|
    {
      var x :| x in remaining;
      InsertBySorted(le, x, r);
      r := InsertBy(le, x, r);
      assert rows - (remaining - {x}) == (rows - remaining) + {x};
      remaining := remaining - {x};
    }
    assert rows - remaining == rows;
  }

  /** A sequence holding each element of a set once repeats nothing. */
  lemma NoRepeats<T>(r: seq<T>, rows: set<T>)
    requires multiset(r) == multiset(rows)
    ensures forall i, j :: 0 <= i < j < |r| ==> r[i] != r[j]
  {
    forall i, j | 0 <= i < j < |r|
      ensures r[i] != r[j]
    {
      RepeatCountsTwice(r, i, j);
    }
  }

  lemma RepeatCountsTwice<T>(r: seq<T>, i: nat, j: nat)
    requires i < j < |r|
    ensures r[i] == r[j] ==> multiset(r)[r[i]] >= 2
  {
    assert r == r[..j] + [r[j]] + r[j + 1..];
    assert r[i] in r[..j];
  }
}

=== FILE: station_loop.dfy ===
/** The per-station loop (`PollerService.PollStationLoop`): poll, sleep the
    poll interval, and on failure sleep a back-off that starts at 5 s and
    doubles up to 300 s. Each pass of the loop is an input: how
    `PollStation` ended and whether a shutdown was requested meanwhile. */
module StationLoop {
  import opened Poller

  const InitialRetryDelay: int := 5
  const MaxRetryDelay: int := 300

  /** `retryDelay` in seconds, and whether the loop is still going. */
  datatype LoopState = LoopState(retryDelay: int, running: bool)

  const Start: LoopState := LoopState(InitialRetryDelay, true)

  predicate InRange(s: LoopState) {
    InitialRetryDelay <= s.retryDelay <= MaxRetryDelay
  }

  /** One pass: how `PollStation` ended, and whether the host asked the
      loop to stop during the pass (any pending await then throws
      `OperationCanceledException`, and the loop ends). */
  datatype Pass = Pass(outcome: PollOutcome, stopRequested: bool)

  /** `Math.Min(retryDelay * 2, maxRetryDelay)`. */
  function Doubled(d: int): (r: int)
    requires InitialRetryDelay <= d <= MaxRetryDelay
    ensures InitialRetryDelay <= r <= MaxRetryDelay
    ensures d < r || r == MaxRetryDelay
    ensures r <= 2 * d
  {
    if 2 * d < MaxRetryDelay then 2 * d else MaxRetryDelay
  }

  /** `PollStation` returned without throwing: it published, or it
      absorbed an `HttpRequestException`. */
  predicate ReturnedNormally(o: PollOutcome) {
    o.Published? || o.HttpFailureAbsorbed?
  }

  /** The pass after `PollStation` returned: the back-off is reset, then
      `Task.Delay` of the poll interval runs. A negative interval makes
      `Task.Delay` throw `ArgumentOutOfRangeException`, which the generic
      catch handles like a failed poll. */
  function AfterReturn(pollIntervalSeconds: int): (s: LoopState)
    ensures s.running && InRange(s)
    ensures s.retryDelay == (if pollIntervalSeconds < 0 then 2 * InitialRetryDelay else InitialRetryDelay)
  {
    if pollIntervalSeconds < 0 then LoopState(Doubled(InitialRetryDelay), true)
    else LoopState(InitialRetryDelay, true)
  }

  /** The loop body as written. Its `catch (OperationCanceledException)`
      also catches the `TaskCanceledException` of an HTTP timeout, which
      `PollStation` rethrows, so a timeout ends the loop for good. */
  function StepAsWritten(s: LoopState, p: Pass, pollIntervalSeconds: int): (s': LoopState)
    requires InRange(s)
    ensures InRange(s')
    ensures !s.running ==> s' == s
    ensures s.running && p.stopRequested ==> !s'.running
    ensures s.running && !p.stopRequested && p.outcome == Threw(TimedOut) ==> !s'.running
  {
    if !s.running then s
    else if p.stopRequested then s.(running := false)
    else if ReturnedNormally(p.outcome) then AfterReturn(pollIntervalSeconds)
    else if p.outcome.fault == TimedOut then s.(running := false)
    else LoopState(Doubled(s.retryDelay), true)
  }

  /** The loop body as evidently intended: only a requested shutdown ends
      the loop; an HTTP timeout is a failed poll like any other. */
  function Step(s: LoopState, p: Pass, pollIntervalSeconds: int): (s': LoopState)
    requires InRange(s)
    ensures InRange(s')
    ensures s'.running <==> s.running && !p.stopRequested
    ensures s.running && !p.stopRequested && ReturnedNormally(p.outcome) ==>
              s' == AfterReturn(pollIntervalSeconds)
    ensures s.running && !p.stopRequested && p.outcome.Threw? ==>
              s'.retryDelay == Doubled(s.retryDelay) && s'.retryDelay >= s.retryDelay
  {
    if !s.running then s
    else if p.stopRequested then s.(running := false)
    else if ReturnedNormally(p.outcome) then AfterReturn(pollIntervalSeconds)
    else LoopState(Doubled(s.retryDelay), true)
  }

  /** The loop over a sequence of passes. */
  function Run(s: LoopState, passes: seq<Pass>, pollIntervalSeconds: int): (s': LoopState)
    requires InRange(s)
    ensures InRange(s')
    decreases |passes|
  {
    if |passes| == 0 then s else Run(Step(s, passes[0], pollIntervalSeconds), passes[1..], pollIntervalSeconds)
  }

  /** The loop keeps going exactly as long as nobody asked it to stop. */
  lemma {:induction false} RunStopsOnlyOnRequest(s: LoopState, passes: seq<Pass>, pollIntervalSeconds: int)
    requires InRange(s)
    ensures Run(s, passes, pollIntervalSeconds).running <==>
              s.running && forall i :: 0 <= i < |passes| ==> !passes[i].stopRequested
    decreases |passes|
  {
    if |passes| > 0 {
      RunStopsOnlyOnRequest(Step(s, passes[0], pollIntervalSeconds), passes[1..], pollIntervalSeconds);
      assert forall i :: 1 <= i < |passes| ==> passes[i] == passes[1..][i - 1];
    }
  }

  /** Starting from a reset, `k` failed passes in a row leave the back-off
      at `min(5 * 2^k, 300)`. */
  lemma {:induction false} ConsecutiveFailures(passes: seq<Pass>, pollIntervalSeconds: int)
    requires forall i :: 0 <= i < |passes| ==> passes[i].outcome.Threw? && !passes[i].stopRequested
    ensures var d := Run(Start, passes, pollIntervalSeconds).retryDelay;
            d == if InitialRetryDelay * Pow2(|passes|) < MaxRetryDelay
                 then InitialRetryDelay * Pow2(|passes|) else MaxRetryDelay
    decreases |passes|
  {
    if |passes| > 0 {
      var n := |passes| - 1;
      var front := passes[..n];
      ConsecutiveFailures(front, pollIntervalSeconds);
      RunAppendOne(Start, front, passes[n], pollIntervalSeconds);
      assert front + [passes[n]] == passes;
      RunStopsOnlyOnRequest(Start, front, pollIntervalSeconds);
    }
  }

  lemma {:induction false} RunAppendOne(s: LoopState, passes: seq<Pass>, p: Pass, pollIntervalSeconds: int)
    requires InRange(s)
    ensures Run(s, passes + [p], pollIntervalSeconds)
         == Step(Run(s, passes, pollIntervalSeconds), p, pollIntervalSeconds)
    decreases |passes|
  {
    if |passes| > 0 {
      assert (passes + [p])[1..] == passes[1..] + [p];
      RunAppendOne(Step(s, passes[0], pollIntervalSeconds), passes[1..], p, pollIntervalSeconds);
    }
  }

  /** A poll that fails on the transport is absorbed inside `PollStation`,
      so the loop sees a normal return and resets its back-off. */
  lemma TransportFailureResetsBackoff(
    station: Contracts.StationConfig, inputs: PollInputs, env: Environment, s: LoopState)
    requires ValidInputs(inputs) && InRange(s) && s.running
    requires Fetch(inputs.replies, inputs.jitters).result == Wrappers.Failure(HttpRequestError)
    requires station.pollIntervalSeconds >= 0
    ensures var p := Pass(PollStation(station, inputs, env), false);
            Step(s, p, station.pollIntervalSeconds) == Start
            && StepAsWritten(s, p, station.pollIntervalSeconds) == Start
  {
  }

  /** The discrepancy: one HTTP timeout, with no shutdown requested, ends
      the station's loop as written, while the intended loop backs off and
      carries on. */
  lemma TimeoutEndsLoopAsWritten(
    station: Contracts.StationConfig, inputs: PollInputs, env: Environment)
    requires ValidInputs(inputs) && inputs.replies[0] == NoReplyInTime
    ensures var p := Pass(PollStation(station, inputs, env), false);
            && p.outcome == Threw(TimedOut)
            && !StepAsWritten(Start, p, station.pollIntervalSeconds).running
            && Step(Start, p, station.pollIntervalSeconds) == LoopState(2 * InitialRetryDelay, true)
  {
  }
}

=== FILE: store.dfy ===
/** The two Postgres tables the pipeline shares, and the meaning of the
    three statements in `SqlStatements`. `sensors` is keyed by `sensor_id`;
    `sensor_events` is kept as the sequence of its rows, so that "one row
    per `event_id`" is something `ON CONFLICT (event_id) DO NOTHING` has to
    earn rather than something the representation gives for free. */
module Store {
  import opened Wrappers
  import opened Contracts
  import opened Json

  datatype SensorRow = SensorRow(
    sensorId: string,
    sourceType: string,
    displayName: Option<string>,
    lat: Option<Coordinate>,
    lon: Option<Coordinate>,
    createdAt: Instant,
    updatedAt: Instant)

  /** A `sensor_events` row. `payload_json` is named by the insert but never
      given a value by the writer, so it is not part of the model. */
  datatype EventRow = EventRow(
    eventId: string,
    sensorId: string,
    sourceType: string,
    payloadType: string,
    payloadSizeB: int,
    observedAt: Instant,
    receivedAt: Instant,
    statusLevel: string,
    statusMessage: Option<string>,
    measurements: Option<Json>)

  datatype Db = Db(sensors: map<string, SensorRow>, events: seq<EventRow>)

  predicate HasEvent(events: seq<EventRow>, eventId: string) {
    exists i :: 0 <= i < |events| && events[i].eventId == eventId
  }

  /** How many rows carry `eventId`. */
  function CountEvent(events: seq<EventRow>, eventId: string): (n: nat)
    ensures n <= |events|
    decreases |events|
  {
    if |events| == 0 then 0
    else (if events[|events| - 1].eventId == eventId then 1 else 0) + CountEvent(events[..|events| - 1], eventId)
  }

  /** The primary key of `sensor_events`. */
  predicate UniqueEventIds(events: seq<EventRow>) {
    forall i, j :: 0 <= i < j < |events| ==> events[i].eventId != events[j].eventId
  }

  /** `UpsertSensor`: insert with `created_at = updated_at = now()`, or on a
      key clash overwrite everything except `created_at`. */
  function UpsertSensor(db: Db, sensorId: string, sourceType: string, displayName: Option<string>,
                        lat: Option<Coordinate>, lon: Option<Coordinate>, now: Instant): (db': Db)
    ensures db'.events == db.events
    ensures db'.sensors.Keys == db.sensors.Keys + {sensorId}
    ensures forall k :: k in db.sensors && k != sensorId ==> db'.sensors[k] == db.sensors[k]
    ensures var row := db'.sensors[sensorId];
            && row.sensorId == sensorId && row.sourceType == sourceType && row.displayName == displayName
            && row.lat == lat && row.lon == lon && row.updatedAt == now
            && row.createdAt == (if sensorId in db.sensors then db.sensors[sensorId].createdAt else now)
  {
    var createdAt := if sensorId in db.sensors then db.sensors[sensorId].createdAt else now;
    db.(sensors := db.sensors[sensorId := SensorRow(sensorId, sourceType, displayName, lat, lon, createdAt, now)])
  }

  /** `InsertSensorEvent`: a new `event_id` adds the row (one row
      affected); a known one changes nothing (zero rows affected). */
  function InsertEvent(db: Db, row: EventRow): (r: (Db, nat))
    ensures r.0.sensors == db.sensors
    ensures r.1 == 1 <==> !HasEvent(db.events, row.eventId)
    ensures r.1 == 0 <==> HasEvent(db.events, row.eventId)
    ensures HasEvent(r.0.events, row.eventId)
    ensures |r.0.events| == |db.events| + r.1
    ensures r.0.events[..|db.events|] == db.events
    ensures r.1 == 1 ==> r.0.events[|db.events|] == row
  {
    if HasEvent(db.events, row.eventId) then (db, 0)
    else
      assert (db.events + [row])[|db.events|] == row;
      (db.(events := db.events + [row]), 1)
  }

  /** `CheckEventExists`: `SELECT 1 ... LIMIT 1` gives one row or none. */
  function CheckEventExists(db: Db, eventId: string): (rows: seq<int>)
    ensures |rows| <= 1
    ensures |rows| == 1 <==> HasEvent(db.events, eventId)
  {
    if HasEvent(db.events, eventId) then [1] else []
  }

  /** Inserting through `ON CONFLICT DO NOTHING` keeps `event_id` unique. */
  lemma InsertKeepsIdsUnique(db: Db, row: EventRow)
    requires UniqueEventIds(db.events)
    ensures UniqueEventIds(InsertEvent(db, row).0.events)
  {
    var events := InsertEvent(db, row).0.events;
    if !HasEvent(db.events, row.eventId) {
      forall i, j | 0 <= i < j < |events|
        ensures events[i].eventId != events[j].eventId
      {
        if j == |db.events| {
          assert events[i] == db.events[i];
        } else {
          assert events[i] == db.events[i] && events[j] == db.events[j];
        }
      }
    }
  }

  /** With unique ids, a stored event id is on exactly one row. */
  lemma {:induction false} UniqueMeansOneRow(events: seq<EventRow>, eventId: string)
    requires UniqueEventIds(events)
    ensures CountEvent(events, eventId) == (if HasEvent(events, eventId) then 1 else 0)
    decreases |events|
  {
    if |events| > 0 {
      var front := events[..|events| - 1];
      assert forall i :: 0 <= i < |front| ==> front[i] == events[i];
      UniqueMeansOneRow(front, eventId);
      if HasEvent(events, eventId) && events[|events| - 1].eventId != eventId {
        var i :| 0 <= i < |events| && events[i].eventId == eventId;
        assert front[i].eventId == eventId;
      }
    }
  }
}

=== FILE: text.dfy ===
/** The .NET string primitives the pipeline relies on, over `seq<char>`:
    `char.IsWhiteSpace`, `string.IsNullOrWhiteSpace`, `Trim`,
    `ToLowerInvariant` (ASCII letters only, see README), `Replace` of one
    character, the `s.Length > n ? s[..n] : s` truncation idiom and decimal
    rendering of a non-negative count. */
module Text {
  import opened Wrappers

  /** `char.IsWhiteSpace`: the Unicode categories Zs, Zl and Zp plus the
      controls U+0009..U+000D and U+0085. */
  predicate IsWhiteSpace(c: char) {
    var n := c as int;
    || (0x09 <= n <= 0x0D)
    || n == 0x20 || n == 0x85 || n == 0xA0 || n == 0x1680
    || (0x2000 <= n <= 0x200A)
    || n == 0x2028 || n == 0x2029 || n == 0x202F || n == 0x205F || n == 0x3000
  }

  /** A string made only of white space (the empty string included). */
  predicate IsBlank(s: string) {
    forall i :: 0 <= i < |s| ==> IsWhiteSpace(s[i])
  }

  /** `string.IsNullOrWhiteSpace` on a nullable string. */
  predicate IsNullOrWhiteSpace(s: Option<string>) {
    s.None? || IsBlank(s.value)
  }

  /** `string.IsNullOrEmpty` on a nullable string. */
  predicate IsNullOrEmpty(s: Option<string>) {
    s.None? || s.value == ""
  }

  function TrimStart(s: string): (r: string)
    ensures |r| <= |s|
  {
    if |s| > 0 && IsWhiteSpace(s[0]) then TrimStart(s[1..]) else s
  }

  function TrimEnd(s: string): (r: string)
    ensures |r| <= |s|
  {
    if |s| > 0 && IsWhiteSpace(s[|s| - 1]) then TrimEnd(s[..|s| - 1]) else s
  }

  /** `string.Trim()`: drops leading and trailing white space only. */
  function Trim(s: string): (r: string)
    ensures |r| <= |s|
  {
    TrimEnd(TrimStart(s))
  }

  /** `TrimStart` drops a run of white space from the front and stops at
      the first other character. */
  lemma {:induction false} TrimStartFacts(s: string)
    ensures var r := TrimStart(s);
            && r == s[|s| - |r|..]
            && (forall i :: 0 <= i < |s| - |r| ==> IsWhiteSpace(s[i]))
            && (r == [] || !IsWhiteSpace(r[0]))
    decreases |s|
  {
    if |s| > 0 && IsWhiteSpace(s[0]) {
      TrimStartFacts(s[1..]);
    }
  }

  /** `TrimEnd` drops a run of white space from the back and stops at
      the last other character. */
  lemma {:induction false} TrimEndFacts(s: string)
    ensures var r := TrimEnd(s);
            && r == s[..|r|]
            && (forall i :: |r| <= i < |s| ==> IsWhiteSpace(s[i]))
            && (r == [] || !IsWhiteSpace(r[|r| - 1]))
    decreases |s|
  {
    if |s| > 0 && IsWhiteSpace(s[|s| - 1]) {
      TrimEndFacts(s[..|s| - 1]);
    }
  }

  /** A trimmed string neither starts nor ends in white space. */
  lemma TrimFacts(s: string)
    ensures Trim(s) == [] || (!IsWhiteSpace(Trim(s)[0]) && !IsWhiteSpace(Trim(s)[|Trim(s)| - 1]))
  {
    var t := TrimStart(s);
    TrimStartFacts(s);
    TrimEndFacts(t);
    var r := TrimEnd(t);
    if r != [] {
      assert r[0] == t[0];
    }
  }

  /** Trimming leaves alone a string that neither starts nor ends in white space. */
  lemma TrimOfTrimmed(s: string)
    requires s == [] || (!IsWhiteSpace(s[0]) && !IsWhiteSpace(s[|s| - 1]))
    ensures Trim(s) == s
  {
  }

  lemma TrimOfNonBlankIsNonEmpty(s: string)
    requires !IsBlank(s)
    ensures Trim(s) != []
  {
    var i :| 0 <= i < |s| && !IsWhiteSpace(s[i]);
    var t := TrimStart(s);
    TrimStartFacts(s);
    assert |s| - |t| <= i;
    assert !IsWhiteSpace(t[0]);
    TrimEndFacts(t);
    assert !(|TrimEnd(t)| <= 0 < |t|);
  }

  /** Invariant-culture lower-casing, for the ASCII letters. */
  function LowerChar(c: char): char {
    if 'A' <= c <= 'Z' then (c as int + 32) as char else c
  }

  /** Lower-casing never yields an upper-case ASCII letter and maps white
      space, and only white space, to white space. */
  lemma LowerCharFacts(c: char)
    ensures !('A' <= LowerChar(c) <= 'Z')
    ensures IsWhiteSpace(LowerChar(c)) <==> IsWhiteSpace(c)
    ensures LowerChar(c) == ' ' <==> c == ' '
  {
  }

  function ToLowerInvariant(s: string): string {
    seq(|s|, i requires 0 <= i < |s| => LowerChar(s[i]))
  }

  /** `s.Replace(from, to)` for single characters. */
  function ReplaceChar(s: string, from: char, to: char): string {
    seq(|s|, i requires 0 <= i < |s| => if s[i] == from then to else s[i])
  }

  /** The `s.Length > n ? s[..n] : s` idiom: at most the first `n` characters. */
  function Left(s: string, n: nat): (r: string)
    ensures |r| == (if |s| < n then |s| else n)
    ensures r == s[..|r|]
  {
    if |s| > n then s[..n] else s
  }

  /** A string that contains no occurrence of `c`. */
  predicate Lacks(s: string, c: char) {
    forall i :: 0 <= i < |s| ==> s[i] != c
  }

  function DigitChar(d: nat): (c: char)
    requires d < 10
    ensures '0' <= c <= '9' && c as int - '0' as int == d
  {
    ('0' as int + d) as char
  }

  /** Decimal rendering of a non-negative number, as interpolation prints an `int`. */
  function NatToString(n: nat): (r: string)
    ensures |r| >= 1
    ensures forall i :: 0 <= i < |r| ==> '0' <= r[i] <= '9'
  {
    if n < 10 then [DigitChar(n)] else NatToString(n / 10) + [DigitChar(n % 10)]
  }

  /** Decimal renderings of different numbers differ. */
  lemma {:induction false} NatToStringIsInjective(m: nat, n: nat)
    requires NatToString(m) == NatToString(n)
    ensures m == n
    decreases m
  {
    NatToStringLength(m);
    NatToStringLength(n);
    var r := NatToString(m);
    if m < 10 {
      assert r[0] == DigitChar(m) == DigitChar(n);
    } else {
      assert r[|r| - 1] == DigitChar(m % 10) == DigitChar(n % 10);
      assert r[..|r| - 1] == NatToString(m / 10) == NatToString(n / 10);
      NatToStringIsInjective(m / 10, n / 10);
    }
  }

  lemma {:induction false} NatToStringLength(n: nat)
    ensures |NatToString(n)| == 1 <==> n < 10
    decreases n
  {
    if n >= 10 {
      NatToStringLength(n / 10);
    }
  }

  /** The index of the first `c` in `s`, or `|s|` when there is none. */
  function FirstIndex(s: string, c: char): (k: nat)
    ensures k <= |s|
    decreases |s|
  {
    if |s| == 0 then 0 else if s[0] == c then 0 else 1 + FirstIndex(s[1..], c)
  }

  /** `FirstIndex` finds a `c` when it does not run off the end, and none
      lies before it. */
  lemma {:induction false} FirstIndexFacts(s: string, c: char)
    ensures FirstIndex(s, c) < |s| ==> s[FirstIndex(s, c)] == c
    ensures Lacks(s[..FirstIndex(s, c)], c)
    decreases |s|
  {
    if |s| > 0 && s[0] != c {
      FirstIndexFacts(s[1..], c);
      assert s[..FirstIndex(s, c)] == [s[0]] + s[1..][..FirstIndex(s[1..], c)];
    }
  }

  /** In `x + [c] + u` with no `c` inside `x`, the first `c` is the separator. */
  lemma {:induction false} FirstIndexAfter(x: string, c: char, u: string)
    requires Lacks(x, c)
    ensures FirstIndex(x + [c] + u, c) == |x|
    decreases |x|
  {
    if |x| > 0 {
      assert (x + [c] + u)[1..] == x[1..] + [c] + u;
      FirstIndexAfter(x[1..], c, u);
    }
  }

  /** Joining two strings with a separator that the first one lacks can be
      undone: the joined string determines both parts. */
  lemma JoinIsUnambiguous(x: string, y: string, c: char, u: string, v: string)
    requires Lacks(x, c) && Lacks(y, c)
    requires x + [c] + u == y + [c] + v
    ensures x == y && u == v
  {
    var a := x + [c] + u;
    FirstIndexAfter(x, c, u);
    FirstIndexAfter(y, c, v);
    assert x == a[..|x|] && y == a[..|y|];
    assert u == a[|x| + 1..] && v == a[|y| + 1..];
  }

  /** `string.Equals(a, b, StringComparison.OrdinalIgnoreCase)`, for ASCII letters. */
  predicate EqualsIgnoreCase(a: string, b: string) {
    |a| == |b| && forall i :: 0 <= i < |a| ==> LowerChar(a[i]) == LowerChar(b[i])
  }

  /** Ordinal string order: character codes compared left to right, and a
      proper prefix first. */
  predicate OrdinalLe(a: string, b: string)
    decreases |a|
  {
    |a| == 0 || (|b| > 0 && (a[0] < b[0] || (a[0] == b[0] && OrdinalLe(a[1..], b[1..]))))
  }

  lemma {:induction false} OrdinalLeIsTotal(a: string, b: string)
    ensures OrdinalLe(a, b) || OrdinalLe(b, a)
    decreases |a|
  {
    if |a| > 0 && |b| > 0 && a[0] == b[0] {
      OrdinalLeIsTotal(a[1..], b[1..]);
    }
  }

  lemma {:induction false} OrdinalLeIsTransitive(a: string, b: string, c: string)
    requires OrdinalLe(a, b) && OrdinalLe(b, c)
    ensures OrdinalLe(a, c)
    decreases |a|
  {
    if |a| > 0 && a[0] == b[0] && b[0] == c[0] {
      OrdinalLeIsTransitive(a[1..], b[1..], c[1..]);
    }
  }
}

=== FILE: wrappers.dfy ===
/** Failure-compatible wrappers shared by every component of the pipeline model:
    `Option` stands for a C# nullable reference or value, `Result` for a call
    that either returns a value or throws. */
module Wrappers {

  datatype Option<+T> = None | Some(value: T) {

    /** The value, or `default` when absent (the C# `??` operator). */
    function GetOr(default: T): T {
      match this
      case Some(v) => v
      case None => default
    }
  }

  datatype Result<+R, +E> = Success(value: R) | Failure(error: E) {

    predicate IsFailure() {
      Failure?
    }

    function PropagateFailure<U>(): Result<U, E>
      requires Failure?
    {
      Failure(error)
    }

    function Extract(): R
      requires Success?
    {
      value
    }
  }
}
